=== FILE: README.md ===
# Handwritten OCR sum camera: the text-to-numbers pipeline in Dafny

The Android app points the camera at handwriting. It hands each frame to an
on-device text recognizer. When recognition succeeds, the app:

- finds every match of `\d+` in the recognized text,
- converts each match with `String.toInt()`,
- adds the resulting `List<Int>` with `sum()`,
- shows `"Detected: $nums\nSum: $sum"`.

The unit-test helper object `TestUtils` repeats the same extraction. On top of
it, it builds:

- a sum of the numbers in a text,
- two exact-match validators,
- a generator of space-separated test texts,
- a "contains a number" predicate,
- a table of fixture texts with their expected lists.

This project models that pipeline as pure functions over `string`
(`seq<char>`). It proves what the code and its tests promise about it.

Modules, one per file:

| file | module | models |
|---|---|---|
| `wrappers.dfy` | `Wrappers` | `Result`, used for the exception `toInt()` throws |
| `kotlin_int.dfy` | `KotlinInt` | Kotlin `Int`: range, 32-bit two's-complement wrap, `List<Int>.sum()` |
| `decimal.dfy` | `Decimal` | ASCII digits, the base-10 value of a run, canonical decimal rendering |
| `render.dfy` | `Render` | `Int.toString()`, `joinToString`, `List.toString()` (`[a, b, c]`) |
| `digit_runs.dfy` | `DigitRuns` | `Regex("\\d+").findAll`: the maximal runs of ASCII digits, as character-position spans and as substrings |
| `extraction.dfy` | `Extraction` | `.map { it.value.toInt() }.toList()`: the numbers, or the first `NumberFormatException` |
| `main_activity.dfy` | `MainActivity` | the recognizer's success listener: numbers, sum, label |
| `test_utils.dfy` | `TestUtils` | the `TestUtils` helpers and the size half of `stressTest` |
| `test_fixtures.dfy` | `TestFixtures` | the `TestData` / `ExpectedResults` table and the sum checks over it |
| `test_examples.dfy` | `TestExamples` | the concrete examples the test classes assert |

Main modelling choices:

- **Digits.** On the desktop JVM, where the `TestUtils` helpers run, `\d`
  without `UNICODE_CHARACTER_CLASS` matches only `'0'..'9'`. `IsDigit` is
  that range. On Android the listener's `\d` matches more; see "## Left out".
- **Parse errors.** `toInt()` throws `NumberFormatException` for a run whose
  value exceeds 2147483647, such as a ten-digit phone number. Nothing in
  the success listener catches it, so it escapes the callback and no label
  is set. The model returns `Failure(NumberFormat(run))`.
- **Which error.** The sequence is lazy, so the exception reported is the
  one for the first run that does not fit. `RunsToIntsFirstFailure` proves
  that every run before it fits.
- **Sums.** `List<Int>.sum()` adds with 32-bit wrap-around. `IntSum` wraps
  after every addition, exactly as the code does. It is proved equal to the
  exact sum wrapped once, and to the exact sum whenever that fits.
- **Rendering.** A non-negative `Int` renders as its canonical digits. A
  negative one renders as `-` followed by its magnitude. `Int.MIN_VALUE`
  renders with magnitude 2147483648. That is why a generated text containing
  `Int.MIN_VALUE` does not extract back.

Two behaviours of the code that a reader might not expect are kept as
written:

- `toInt()` throws on a run above `Int.MAX_VALUE`; the model keeps that
  error.
- `sum()` wraps silently; the model wraps.

## Model

| member | source | states |
|---|---|---|
| KotlinInt.Wrap | app/src/main/java/com/example/handwrittenocrsumcam/MainActivity.kt:94 | the 32-bit result is congruent to the exact value modulo 2^32, and equals it when it is in `Int` range |
| KotlinInt.WrapAdd | app/src/main/java/com/example/handwrittenocrsumcam/MainActivity.kt:94 | wrapping after each addition gives the same result as wrapping the exact total once |
| KotlinInt.IntSum | app/src/main/java/com/example/handwrittenocrsumcam/MainActivity.kt:94 | `List<Int>.sum()` is the exact sum wrapped to 32 bits, and the exact sum when that fits in an `Int` |
| KotlinInt.SumAppend | app/src/main/java/com/example/handwrittenocrsumcam/MainActivity.kt:94 | the total of two lists one after the other is the sum of their totals |
| KotlinInt.IntSumAppend | app/src/main/java/com/example/handwrittenocrsumcam/MainActivity.kt:94 | `sum()` of two lists one after the other is the 32-bit sum of their two `sum()`s; with `ExtractSplit`, the sum shown for `a + sep + b` is the wrapped sum of the sums for `a` and for `b` |
| KotlinInt.SumOfNonNegative | app/src/main/java/com/example/handwrittenocrsumcam/MainActivity.kt:94 | a list of non-negative numbers has a non-negative total that is at least each element |
| Render.IntToStringReads | app/src/main/java/com/example/handwrittenocrsumcam/MainActivity.kt:95 | `Int.toString()` of a non-negative value is canonical digits worth that value; of a negative value, a minus sign followed by canonical digits worth its magnitude |
| Render.IntToString | app/src/main/java/com/example/handwrittenocrsumcam/MainActivity.kt:95 | `Int.toString()`; no contract of its own, its rendering is stated by `IntToStringReads` and read back by `TokensOfIntString` |
| Render.JoinToString | app/src/test/java/com/example/handwrittenocrsumcam/TestUtils.kt:48 | `joinToString(sep)`; no contract of its own, `TokensOfRendered` and `ExtractRendered` state that extraction reads its numbers' absolute values back in order |
| Render.ListToString | app/src/main/java/com/example/handwrittenocrsumcam/MainActivity.kt:95 | `List.toString()`; no contract of its own, `LabelTokens` states that its digit runs are the elements' magnitudes in order |
| Decimal.NatToString | app/src/main/java/com/example/handwrittenocrsumcam/MainActivity.kt:95 | `toString()` of a non-negative number is a digit string without redundant leading zeros whose base-10 value is that number |
| Decimal.CanonicalRoundTrip | app/src/main/java/com/example/handwrittenocrsumcam/MainActivity.kt:92 | parsing a digit string without redundant leading zeros and rendering the value gives the same string back |
| Decimal.LeadingZeros | app/src/main/java/com/example/handwrittenocrsumcam/MainActivity.kt:92 | zeros in front of a run do not change the value `toInt()` reads |
| Decimal.ZerosValue | app/src/main/java/com/example/handwrittenocrsumcam/MainActivity.kt:92 | a run made only of zeros has value 0 |
| Decimal.ValueBound | app/src/main/java/com/example/handwrittenocrsumcam/MainActivity.kt:92 | a run of k digits has a value below 10^k |
| Decimal.ZerosThenCanonical | app/src/main/java/com/example/handwrittenocrsumcam/MainActivity.kt:92 | every non-empty digit string is some zeros followed by the canonical rendering of its value, so the value `toInt()` reads is the number whose `toString()` the run spells |
| Decimal.Value | app/src/main/java/com/example/handwrittenocrsumcam/MainActivity.kt:92 | the base-10 value `toInt()` computes; it has no contract of its own, and `NatToString`, `CanonicalRoundTrip` and `ZerosThenCanonical` show it inverts `toString()` up to leading zeros |
| Decimal.ValuePositive | app/src/main/java/com/example/handwrittenocrsumcam/MainActivity.kt:92 | a run that does not start with '0' has a value of at least 1 |
| DigitRuns.FindAll | app/src/main/java/com/example/handwrittenocrsumcam/MainActivity.kt:91 | every match is a non-empty range inside the text; `FindAllRuns` and `RunCoverUnique` prove it is exactly the ordered list of maximal digit runs |
| DigitRuns.Tokens | app/src/main/java/com/example/handwrittenocrsumcam/MainActivity.kt:91 | `it.value` of each match: one substring per match, each a non-empty string of ASCII digits |
| DigitRuns.RunEnd | app/src/main/java/com/example/handwrittenocrsumcam/MainActivity.kt:91 | the greedy `\d+` from a position consumes digits up to the first non-digit or the end of the text |
| DigitRuns.FindAllRuns | app/src/main/java/com/example/handwrittenocrsumcam/MainActivity.kt:91 | every match of `findAll` is a maximal run of ASCII digits; the matches are strictly left to right; every digit of the text lies in one of them |
| DigitRuns.RunCoverUnique | app/src/main/java/com/example/handwrittenocrsumcam/MainActivity.kt:91 | any ordered list of maximal runs that covers every digit is exactly the list `findAll` returns |
| DigitRuns.CoverUniqueFrom | app/src/main/java/com/example/handwrittenocrsumcam/MainActivity.kt:91 | from any position at a run boundary, the scan's matches are the only ordered maximal-run cover of the rest of the text |
| DigitRuns.FindAllSplit | app/src/main/java/com/example/handwrittenocrsumcam/MainActivity.kt:91 | the matches in `a + sep + b` (sep a non-empty digit-free string) are those of `a`, then those of `b` shifted past `a + sep` |
| DigitRuns.TokensSplit | app/src/main/java/com/example/handwrittenocrsumcam/MainActivity.kt:91 | the matched substrings of `a + sep + b` are those of `a` followed by those of `b` |
| DigitRuns.TokensAfterSeparators | app/src/main/java/com/example/handwrittenocrsumcam/MainActivity.kt:91 | digit-free text in front changes no match |
| DigitRuns.TokensEmpty | app/src/main/java/com/example/handwrittenocrsumcam/MainActivity.kt:91 | there is no match exactly when the text has no ASCII digit |
| DigitRuns.TokensOfRun | app/src/main/java/com/example/handwrittenocrsumcam/MainActivity.kt:91 | a text that is one run of digits is its only match |
| DigitRuns.TokensInterleaved | app/src/main/java/com/example/handwrittenocrsumcam/MainActivity.kt:91 | runs separated by non-empty digit-free strings, with any digit-free text at either end, are matched exactly, in order |
| Extraction.RunToInt | app/src/main/java/com/example/handwrittenocrsumcam/MainActivity.kt:92 | `String.toInt()` on a digit run: the value when it is at most 2147483647, otherwise `NumberFormat(run)`; `RunToIntReads` states which number the run spells |
| Extraction.RunToIntReads | app/src/main/java/com/example/handwrittenocrsumcam/MainActivity.kt:92 | `toInt()` on a run gives `n` exactly when `n` is at most 2147483647 and the run is `n.toString()` behind some leading zeros |
| Extraction.RunsToInts | app/src/main/java/com/example/handwrittenocrsumcam/MainActivity.kt:92-93 | mapping `toInt()` over the runs succeeds exactly when every run fits; it then has one value per run, in order; otherwise the error names a run that does not fit |
| Extraction.RunsToIntsFirstFailure | app/src/main/java/com/example/handwrittenocrsumcam/MainActivity.kt:91-93 | the reported error is for the first run that does not fit: every earlier run fits |
| Extraction.Extract | app/src/main/java/com/example/handwrittenocrsumcam/MainActivity.kt:91-93 | the numbers are one per maximal digit run, left to right, each non-negative and equal to its run's base-10 value; the error, when there is one, names a run above 2147483647 |
| Extraction.RunsToIntsAppend | app/src/main/java/com/example/handwrittenocrsumcam/MainActivity.kt:92-93 | converting two lists of runs one after the other gives the first error, or both value lists concatenated |
| Extraction.ExtractSplit | app/src/main/java/com/example/handwrittenocrsumcam/MainActivity.kt:91-93 | extracting from `a + sep + b` (sep non-empty, digit-free) extracts from `a` and then from `b` |
| Extraction.ExtractAfterSeparators | app/src/main/java/com/example/handwrittenocrsumcam/MainActivity.kt:91-93 | a digit-free text in front of another changes nothing extracted |
| Extraction.ExtractEmpty | app/src/main/java/com/example/handwrittenocrsumcam/MainActivity.kt:91-93 | the list is empty exactly when the text has no ASCII digit |
| Extraction.ExtractRun | app/src/main/java/com/example/handwrittenocrsumcam/MainActivity.kt:91-93 | a text that is one run gives its value, or the error for that run when it exceeds 2147483647 |
| Extraction.ShortRunFits | app/src/main/java/com/example/handwrittenocrsumcam/MainActivity.kt:92 | a run of at most nine digits always converts |
| Extraction.MinIntMagnitude | app/src/main/java/com/example/handwrittenocrsumcam/MainActivity.kt:92 | the digits of `Int.MIN_VALUE`'s rendering spell 2147483648, one more than `toInt()` accepts |
| Extraction.TokensOfRendered | app/src/main/java/com/example/handwrittenocrsumcam/MainActivity.kt:91 | the matches in rendered numbers joined by a non-empty digit-free separator are the numbers' magnitudes, in order |
| Extraction.MagnitudesToInts | app/src/main/java/com/example/handwrittenocrsumcam/MainActivity.kt:92-93 | converting the magnitudes of a list of `Int`s succeeds exactly when `Int.MIN_VALUE` is absent, and gives the absolute values; otherwise it fails on "2147483648" |
| Extraction.ExtractRendered | app/src/main/java/com/example/handwrittenocrsumcam/MainActivity.kt:91-93 | extracting from rendered numbers joined by a non-empty digit-free separator gives their absolute values, or fails on "2147483648" exactly when `Int.MIN_VALUE` is in the list |
| Extraction.ExtractRenderedNonNegative | app/src/main/java/com/example/handwrittenocrsumcam/MainActivity.kt:91-93 | rendering non-negative `Int`s with a non-empty digit-free separator and extracting gives the same list back |
| MainActivity.OnTextRecognized | app/src/main/java/com/example/handwrittenocrsumcam/MainActivity.kt:91-95 | the listener yields one non-negative number per maximal run in order, their 32-bit wrapped sum (the exact sum when it fits), and the label built from the two; or the error of a run above 2147483647 |
| MainActivity.ExactSum | app/src/main/java/com/example/handwrittenocrsumcam/MainActivity.kt:94 | when the exact total fits, the displayed sum is that total, non-negative and at least every number |
| MainActivity.NoDigitsReading | app/src/main/java/com/example/handwrittenocrsumcam/MainActivity.kt:91-95 | the reading is the empty list, sum 0 and label "Detected: []\nSum: 0" exactly when the text has no digit |
| MainActivity.DetectedLabel | app/src/main/java/com/example/handwrittenocrsumcam/MainActivity.kt:95 | the `"Detected: $nums\nSum: $sum"` template; no contract of its own, `LabelTokens` and `LabelRoundTrip` state what extraction reads back from it |
| MainActivity.LabelTokens | app/src/main/java/com/example/handwrittenocrsumcam/MainActivity.kt:95 | the digit runs in the label are the magnitudes of the listed numbers followed by the magnitude of the sum |
| MainActivity.LabelRoundTrip | app/src/main/java/com/example/handwrittenocrsumcam/MainActivity.kt:95 | extracting from the label of non-negative numbers gives those numbers followed by the sum's absolute value when the sum is not `Int.MIN_VALUE`; a sum that wrapped to `Int.MIN_VALUE` makes extraction fail on "2147483648" |
| MainActivity.OverflowExampleRenderings | app/src/main/java/com/example/handwrittenocrsumcam/MainActivity.kt:95 | `[999999, 1000000, 2147483647]` renders with `toString()` as "[999999, 1000000, 2147483647]" and, space-joined, as "999999 1000000 2147483647" |
| MainActivity.OverflowExampleSum | app/src/test/java/com/example/handwrittenocrsumcam/MainActivityTest.kt:84-86 | `sum()` of 999999, 1000000 and 2147483647 wraps to -2145483650, not to the exact total the test expects |
| MainActivity.SumWrapsAround | app/src/main/java/com/example/handwrittenocrsumcam/MainActivity.kt:91-95 | the text "999999 1000000 2147483647" is read as those three numbers with displayed sum -2145483650 |
| MainActivity.RunTooLarge | app/src/main/java/com/example/handwrittenocrsumcam/MainActivity.kt:92 | the text "Total 2147483648" produces no reading, only the error for the run "2147483648" |
| TestUtils.ExtractNumbersFromText | app/src/test/java/com/example/handwrittenocrsumcam/TestUtils.kt:14-19 | the helper extracts exactly what the app's listener extracts, including the same error |
| TestUtils.CalculateSumFromText | app/src/test/java/com/example/handwrittenocrsumcam/TestUtils.kt:24-26 | the helper's sum is the wrapped total of the extracted list and equals the sum the app displays; it fails exactly when extraction fails |
| TestUtils.CalculateSumExact | app/src/test/java/com/example/handwrittenocrsumcam/TestUtils.kt:24-26 | when the exact total fits in an `Int`, the helper returns that total |
| TestUtils.ValidateNumberExtraction | app/src/test/java/com/example/handwrittenocrsumcam/TestUtils.kt:31-34 | the validator answers (rather than throws) exactly when every run fits, and answers true exactly when extraction gives the expected list |
| TestUtils.ValidateNumberExtractionMeaning | app/src/test/java/com/example/handwrittenocrsumcam/TestUtils.kt:31-34 | the answer is true exactly when the expected list has one entry per run, in order, each equal to that run's value |
| TestUtils.ValidateSumCalculation | app/src/test/java/com/example/handwrittenocrsumcam/TestUtils.kt:39-42 | the validator answers exactly when every run fits, and answers true exactly when the computed sum is the expected one |
| TestUtils.ValidateSumExact | app/src/test/java/com/example/handwrittenocrsumcam/TestUtils.kt:39-42 | when the exact total fits, the answer is whether the expected sum equals that total |
| TestUtils.GenerateTestText | app/src/test/java/com/example/handwrittenocrsumcam/TestUtils.kt:47-49 | the generated text starts with the prefix, and is just the prefix for an empty list |
| TestUtils.DefaultPrefixDigitFree | app/src/test/java/com/example/handwrittenocrsumcam/TestUtils.kt:47 | the default prefix "Test numbers: " holds no digit |
| TestUtils.GeneratedTextExtraction | app/src/test/java/com/example/handwrittenocrsumcam/TestUtils.kt:47-49 | extracting from a generated text with a digit-free prefix gives the absolute values of the numbers, or fails on "2147483648" exactly when `Int.MIN_VALUE` is among them |
| TestUtils.GeneratedTextRoundTrip | app/src/test/java/com/example/handwrittenocrsumcam/TestUtils.kt:47-49 | for a digit-free prefix and non-negative numbers, extracting from the generated text gives the numbers back |
| TestUtils.TestRegexPattern | app/src/test/java/com/example/handwrittenocrsumcam/TestUtils.kt:54-57 | `containsMatchIn` holds exactly when some character is an ASCII digit |
| TestUtils.RegexPatternMeansTokens | app/src/test/java/com/example/handwrittenocrsumcam/TestUtils.kt:54-57 | the text contains a match exactly when `findAll` finds one, and exactly when extraction does not give the empty list |
| TestUtils.UpTo | app/src/test/java/com/example/handwrittenocrsumcam/TestUtils.kt:75 | the range `1..n` has max(n, 0) elements, contains exactly the integers from 1 to n, and is strictly increasing |
| TestUtils.StressTestSize | app/src/test/java/com/example/handwrittenocrsumcam/TestUtils.kt:73-81 | the size half of `stressTest`; no contract of its own, `StressTestHolds` states its outcome for every count |
| TestUtils.StressTestHolds | app/src/test/java/com/example/handwrittenocrsumcam/TestUtils.kt:73-81 | the stress text for n extracts to exactly 1..n, so the size check holds exactly when n >= 0 |
| TestFixtures.ValidateInterleaved | app/src/test/java/com/example/handwrittenocrsumcam/TestUtils.kt:31-34 | a text made of digit runs and digit-free separators validates against the runs' values |
| TestFixtures.FixtureTable | app/src/test/java/com/example/handwrittenocrsumcam/TestUtils.kt:87-113 | every `TestData` text validates against its `ExpectedResults` list |
| TestFixtures.EmptyTextFixture | app/src/test/java/com/example/handwrittenocrsumcam/TestUtilsTest.kt:138-141 | "" validates against the empty list |
| TestFixtures.NoNumbersFixture | app/src/test/java/com/example/handwrittenocrsumcam/TestUtilsTest.kt:144-147 | "Hello World" validates against the empty list |
| TestFixtures.SingleNumberFixture | app/src/test/java/com/example/handwrittenocrsumcam/TestUtilsTest.kt:150-153 | "123" validates against [123] |
| TestFixtures.MultipleNumbersFixture | app/src/test/java/com/example/handwrittenocrsumcam/TestUtilsTest.kt:156-159 | "1 2 3 4 5" validates against [1, 2, 3, 4, 5] |
| TestFixtures.LargeNumbersFixture | app/src/test/java/com/example/handwrittenocrsumcam/TestUtilsTest.kt:162-165 | "999999999 1000000000" validates against [999999999, 1000000000] |
| TestFixtures.DecimalNumbersFixture | app/src/test/java/com/example/handwrittenocrsumcam/TestUtilsTest.kt:168-171 | "12.34 56.78" validates against [12, 34, 56, 78] |
| TestFixtures.SpecialCharactersFixture | app/src/test/java/com/example/handwrittenocrsumcam/TestUtilsTest.kt:174-177 | the special-characters text validates against [123, 456] |
| TestFixtures.WhitespaceFixture | app/src/test/java/com/example/handwrittenocrsumcam/TestUtilsTest.kt:180-183 | "  123   456   789  " validates against [123, 456, 789] |
| TestFixtures.NewlineFixture | app/src/test/java/com/example/handwrittenocrsumcam/TestUtilsTest.kt:186-189 | the three-line text validates against [1, 123, 2, 456, 3, 789] |
| TestFixtures.ZeroNumbersFixture | app/src/test/java/com/example/handwrittenocrsumcam/TestUtilsTest.kt:192-195 | "0 000 00123" validates against [0, 0, 123] |
| TestFixtures.SumFixtures | app/src/test/java/com/example/handwrittenocrsumcam/TestUtils.kt:137-140 | the empty and no-number texts sum to 0, "123" to 123 and "1 2 3 4 5" to 15 |
| TestFixtures.SumOfFive | app/src/test/java/com/example/handwrittenocrsumcam/MainActivityTest.kt:67-71 | `sum()` of [1, 2, 3, 4, 5] is 15 |
| TestExamples.HelloWorldReading | app/src/androidTest/java/com/example/handwrittenocrsumcam/MainActivityInstrumentedTest.kt:187-198 | "Hello 123 World 456" reads as [123, 456] with sum 579 and label "Detected: [123, 456]\nSum: 579" |
| TestExamples.SignsDropped | app/src/test/java/com/example/handwrittenocrsumcam/TestUtilsTest.kt:205-208 | "-5 10 -3" extracts to [5, 10, 3]: the minus sign is a separator |
| TestExamples.DecimalsSplit | app/src/test/java/com/example/handwrittenocrsumcam/MainActivityTest.kt:99-104 | "Price: 12.34 and 56.78" extracts to [12, 34, 56, 78] |
| TestExamples.MixedText | app/src/test/java/com/example/handwrittenocrsumcam/TestUtilsTest.kt:210-213 | "Price: $99.99, Quantity: 5, Total: 149.50" extracts to [99, 99, 5, 149, 50] |
| TestExamples.LeadingZerosVanish | app/src/test/java/com/example/handwrittenocrsumcam/MainActivityTest.kt:151-153 | "0" and "000" extract to [0], "00123" to [123] |
| TestExamples.TrailingZerosKept | app/src/test/java/com/example/handwrittenocrsumcam/MainActivityTest.kt:154 | "123000" extracts to [123000] |
| TestExamples.NineNinesFits | app/src/test/java/com/example/handwrittenocrsumcam/MainActivityTest.kt:155 | "999999999" extracts to [999999999] |
| TestExamples.RegexMatches | app/src/test/java/com/example/handwrittenocrsumcam/MainActivityTest.kt:140-142 | "123", "abc123def" and "123.456" contain a match |
| TestExamples.RegexMisses | app/src/test/java/com/example/handwrittenocrsumcam/MainActivityTest.kt:143-145 | "abc", "" and " " contain no match |
| TestExamples.HelperRegexExamples | app/src/test/java/com/example/handwrittenocrsumcam/TestUtilsTest.kt:98-109 | `testRegexPattern` is true on "Hello 123 World" and false on "Hello World" |
| TestExamples.ValidationExamples | app/src/test/java/com/example/handwrittenocrsumcam/TestUtilsTest.kt:52-66 | "123 456" validates against [123, 456] and not against [123, 789] |
| TestExamples.SumValidationExamples | app/src/test/java/com/example/handwrittenocrsumcam/TestUtilsTest.kt:68-82 | "1 2 3 4 5" validates against sum 15 and not against 20 |
| TestExamples.GenerateDefaultExample | app/src/test/java/com/example/handwrittenocrsumcam/TestUtilsTest.kt:84-89 | [1, 2, 3, 4, 5] with the default prefix generates "Test numbers: 1 2 3 4 5" |
| TestExamples.GenerateCustomExample | app/src/test/java/com/example/handwrittenocrsumcam/TestUtilsTest.kt:91-96 | [10, 20, 30] with prefix "Custom: " generates "Custom: 10 20 30" |

## Left out

- Non-ASCII digits on Android: Android's `java.util.regex` is built on ICU, so the listener's `\d` also matches other Unicode decimal digits (Arabic-Indic, Devanagari, …), and `toInt()` parses them by digit value through `Character.digit`. On a device, "٤٢" gives `[42]`, while the model gives `[]`. The model follows the desktop JVM's ASCII `\d`, which is what the `TestUtils` helpers see in the unit tests. The Latin text recognizer makes such input rare.
- Match positions: `Span` indices count characters (Unicode scalar values), while `MatchResult.range` counts UTF-16 code units. The two differ once the text holds a character outside the Basic Multilingual Plane, such as an emoji. A Kotlin `String` can also hold unpaired surrogates, which a Dafny `string` cannot. The extracted numbers, the sum and the label do not depend on positions, so they are unaffected.
- Camera setup, preview, image analysis configuration, the permission flow and the activity lifecycle (`MainActivity.kt` lines 30-81 and 100-103): Android platform plumbing with no text logic.
- The recognizer call, its asynchronous success and completion listeners, and `imageProxy.close()` (`MainActivity.kt` lines 84-97): a foreign library and threading. The model takes the recognized text as a parameter (`OnTextRecognized`). Writing the label into the `TextView` becomes the `display` field of the result.
- `toInt()` on strings other than digit runs: the regex only hands it runs of ASCII digits, so the sign and non-digit cases of `toInt()` never arise.
- `performanceTest`, the timing half of `stressTest`, and the timing and memory tests: they depend on the wall clock and the heap. `StressTestSize` models only the `result.size == numberCount` half.
- `runComprehensiveTestSuite` and `TestResult` with its `Double` `successRate`: a test harness over the checks modelled individually by `FixtureTable`, `SumFixtures` and `StressTestHolds`.
- Espresso and UI-automator checks and the Mockito mocks: they cover UI state and mocked objects.
- The large-number test in `MainActivityTest.kt` (lines 83-88) expects the exact total 2149483646 as a `Long`. `List<Int>.sum()` wraps in 32 bits, so that expectation contradicts the code. `OverflowExampleSum` and `SumWrapsAround` state what the code computes instead.
- The negative-number test in `MainActivityTest.kt` (lines 90-96) sums a literal list that extraction can never produce, because extracted numbers are never negative.
- The performance test in `MainActivityTest.kt` (lines 164-176): its timing half depends on the wall clock. Its size half builds the same text as `stressTest` with a different digit-free prefix, and `GeneratedTextRoundTrip` covers every digit-free prefix.
- TestUtils.GenerateTestText: its own contract states only the prefix property. Its content is pinned down by `GeneratedTextExtraction` and `GeneratedTextRoundTrip` (what extraction reads back) and by the two concrete examples.

=== FILE: decimal.dfy ===
/** ASCII decimal digits (the characters the desktop JVM's `\d` matches
    when `UNICODE_CHARACTER_CLASS` is off; Android's ICU-based `\d` matches
    every Unicode decimal digit), the base-10 value of a digit string, and
    the canonical rendering of a natural number. */
module Decimal {

  predicate IsDigit(c: char) {
    '0' <= c <= '9'
  }

  predicate AllDigits(s: string) {
    forall k :: 0 <= k < |s| ==> IsDigit(s[k])
  }

  predicate DigitFree(s: string) {
    forall k :: 0 <= k < |s| ==> !IsDigit(s[k])
  }

  predicate AllZeros(s: string) {
    forall k :: 0 <= k < |s| ==> s[k] == '0'
  }

  /** A rendering without redundant leading zeros: "0", or digits that do
      not start with '0'. */
  predicate IsCanonical(s: string) {
    |s| >= 1 && AllDigits(s) && (s[0] == '0' ==> |s| == 1)
  }

  function DigitValue(c: char): nat
    requires IsDigit(c)
  {
    c as int - '0' as int
  }

  function DigitChar(d: nat): (c: char)
    requires d < 10
    ensures IsDigit(c) && DigitValue(c) == d
  {
    ('0' as int + d) as char
  }

  function Pow10(n: nat): nat
  {
    if n == 0 then 1 else 10 * Pow10(n - 1)
  }

  /** The base-10 value of a digit string, most significant digit first;
      leading zeros contribute nothing. */
  function Value(s: string): nat
    requires AllDigits(s)
  {
    if |s| == 0 then 0 else 10 * Value(s[..|s| - 1]) + DigitValue(s[|s| - 1])
  }

  /** `n.toString()` for a non-negative `n`: the shortest digit string
      whose value is `n`. */
  function NatToString(n: nat): (r: string)
    ensures IsCanonical(r)
    ensures Value(r) == n
    decreases n
  {
    if n < 10 then [DigitChar(n)]
    else
      var init := NatToString(n / 10);
      var r := init + [DigitChar(n % 10)];
      assert r[..|r| - 1] == init;
      r
  }

  /** The rendering of a number of two or more digits is the rendering
      of all but its last digit, followed by that digit. */
  lemma NatToStringSnoc(n: nat, init: string, last: char)
    requires n >= 10 && NatToString(n / 10) == init && last == DigitChar(n % 10)
    ensures NatToString(n) == init + [last]
  {
  }

  /** A digit string of length n has a value below 10^n. */
  lemma {:induction false} ValueBound(s: string)
    requires AllDigits(s)
    ensures Value(s) < Pow10(|s|)
  {
    if |s| > 0 {
      ValueBound(s[..|s| - 1]);
    }
  }

  /** A digit string that starts with a non-zero digit has a positive value. */
  lemma {:induction false} ValuePositive(s: string)
    requires |s| >= 1 && AllDigits(s) && s[0] != '0'
    ensures Value(s) >= 1
  {
    if |s| > 1 {
      ValuePositive(s[..|s| - 1]);
    }
  }

  /** A string of zeros is worth 0. */
  lemma {:induction false} ZerosValue(z: string)
    requires AllZeros(z)
    ensures AllDigits(z) && Value(z) == 0
  {
    if |z| > 0 {
      ZerosValue(z[..|z| - 1]);
    }
  }

  /** Leading zeros do not change the value: "00123" is worth 123 and
      "000" is worth 0. */
  lemma {:induction false} LeadingZeros(z: string, s: string)
    requires AllZeros(z) && AllDigits(s)
    ensures AllDigits(z + s) && Value(z + s) == Value(s)
    decreases |s|
  {
    ZerosValue(z);
    if |s| == 0 {
      assert z + s == z;
    } else {
      var s' := s[..|s| - 1];
      assert (z + s)[..|z + s| - 1] == z + s';
      LeadingZeros(z, s');
    }
  }

  /** Rendering the value of a canonical digit string gives that string
      back, so NatToString and Value are mutually inverse on canonical
      strings. */
  lemma {:induction false} CanonicalRoundTrip(s: string)
    requires IsCanonical(s)
    ensures NatToString(Value(s)) == s
    decreases |s|
  {
    if |s| == 1 {
      assert Value(s) == DigitValue(s[0]);
      assert [DigitChar(DigitValue(s[0]))] == s;
    } else {
      var init := s[..|s| - 1];
      var d := DigitValue(s[|s| - 1]);
      assert IsCanonical(init);
      ValuePositive(init);
      CanonicalRoundTrip(init);
      var v := Value(s);
      assert v == 10 * Value(init) + d;
      assert v / 10 == Value(init) && v % 10 == d;
      assert DigitChar(d) == s[|s| - 1];
      assert s == init + [s[|s| - 1]];
    }
  }

  /** Every non-empty digit string is some zeros followed by the canonical
      rendering of its value: Value reads exactly what NatToString writes,
      up to leading zeros. */
  lemma {:induction false} ZerosThenCanonical(s: string)
    requires |s| >= 1 && AllDigits(s)
    ensures exists z :: AllZeros(z) && s == z + NatToString(Value(s))
    decreases |s|
  {
    if IsCanonical(s) {
      CanonicalRoundTrip(s);
      assert AllZeros("") && s == "" + NatToString(Value(s));
    } else {
      var t := s[1..];
      assert s == "0" + t;
      ZerosThenCanonical(t);
      var z :| AllZeros(z) && t == z + NatToString(Value(t));
      ZeroInFront(t, z);
    }
  }

  /** One more leading zero joins the zeros in front of the rendering. */
  lemma ZeroInFront(t: string, z: string)
    requires AllDigits(t) && AllZeros(z) && t == z + NatToString(Value(t))
    ensures AllZeros("0" + z) && AllDigits("0" + t)
    ensures "0" + t == ("0" + z) + NatToString(Value("0" + t))
  {
    LeadingZeros("0", t);
  }
}

=== FILE: digit_runs.dfy ===
/** The matches of the regular expression `\d+` in a text, as
    `Regex.findAll` reports them: scanning left to right, each match is a
    maximal run of ASCII digits, and every other character separates. */
module DigitRuns {
  import opened Decimal

  /** The index range [start, end) of one match. Indices count characters
      (Unicode scalar values); `MatchResult.range` counts UTF-16 code units,
      and the two agree only while the text stays in the Basic Multilingual
      Plane. */
  datatype Span = Span(start: nat, end: nat)

  /** `m` is a maximal run of digits of `s`: non-empty, digits only, and not
      extendable to the left or to the right. */
  ghost predicate IsMaximalRun(s: string, m: Span) {
    && m.start < m.end <= |s|
    && (forall q :: m.start <= q < m.end ==> IsDigit(s[q]))
    && (m.start == 0 || !IsDigit(s[m.start - 1]))
    && (m.end == |s| || !IsDigit(s[m.end]))
  }

  /** `ms` lists, left to right, every maximal digit run of `s` that lies at
      or after position `i`, and covers every digit there. */
  ghost predicate IsRunCoverFrom(s: string, i: nat, ms: seq<Span>) {
    && (forall k :: 0 <= k < |ms| ==> i <= ms[k].start && IsMaximalRun(s, ms[k]))
    && (forall k, l :: 0 <= k < l < |ms| ==> ms[k].end < ms[l].start)
    && (forall p :: i <= p < |s| && IsDigit(s[p]) ==>
          exists k :: 0 <= k < |ms| && ms[k].start <= p < ms[k].end)
  }

  /** `ms` is exactly the maximal digit runs of `s`, in left-to-right order. */
  ghost predicate IsRunCover(s: string, ms: seq<Span>) {
    IsRunCoverFrom(s, 0, ms)
  }

  /** Position `i` is not strictly inside a run of digits, so a scan may
      resume there. */
  predicate AtBoundary(s: string, i: nat) {
    i <= |s| && (i == 0 || i == |s| || !IsDigit(s[i - 1]) || !IsDigit(s[i]))
  }

  /** The greedy `\d+` from position `i`: the first position at or after
      `i` that does not hold a digit. */
  function RunEnd(s: string, i: nat): (j: nat)
    requires i <= |s|
    ensures i <= j <= |s|
    ensures forall q :: i <= q < j ==> IsDigit(s[q])
    ensures j == |s| || !IsDigit(s[j])
    decreases |s| - i
  {
    if i < |s| && IsDigit(s[i]) then RunEnd(s, i + 1) else i
  }

  /** The matches found by resuming the scan at position `i`. */
  function MatchesFrom(s: string, i: nat): (ms: seq<Span>)
    requires i <= |s|
    ensures forall k :: 0 <= k < |ms| ==> i <= ms[k].start < ms[k].end <= |s|
    decreases |s| - i
  {
    if i == |s| then []
    else if !IsDigit(s[i]) then MatchesFrom(s, i + 1)
    else
      var j := RunEnd(s, i);
      [Span(i, j)] + MatchesFrom(s, j)
  }

  /** `Regex("\\d+").findAll(s)`: the position ranges of all matches, in
      order (positions in characters, see `Span`). */
  function FindAll(s: string): (ms: seq<Span>)
    ensures forall k :: 0 <= k < |ms| ==> ms[k].start < ms[k].end <= |s|
  {
    MatchesFrom(s, 0)
  }

  /** `findAll` reports exactly the maximal runs of digits, left to right,
      and every digit of the text lies in one of them. */
  lemma FindAllRuns(s: string)
    ensures IsRunCover(s, FindAll(s))
  {
    MatchesFromCover(s, 0);
  }

  /** The substrings of `s` at the given ranges. */
  function Slices(s: string, ms: seq<Span>): (r: seq<string>)
    requires forall k :: 0 <= k < |ms| ==> ms[k].start <= ms[k].end <= |s|
    ensures |r| == |ms|
  {
    seq(|ms|, k requires 0 <= k < |ms| => s[ms[k].start..ms[k].end])
  }

  /** The matched texts (`MatchResult.value`) of `findAll`, in order. */
  function Tokens(s: string): (ts: seq<string>)
    ensures |ts| == |FindAll(s)|
    ensures forall k :: 0 <= k < |ts| ==> |ts[k]| >= 1 && AllDigits(ts[k])
  {
    FindAllRuns(s);
    Slices(s, FindAll(s))
  }

  /** Prepending the run [i, j) to the runs after j lists the runs after i. */
  lemma ConsCover(s: string, i: nat, j: nat, rest: seq<Span>)
    requires IsMaximalRun(s, Span(i, j))
    requires IsRunCoverFrom(s, j, rest)
    ensures IsRunCoverFrom(s, i, [Span(i, j)] + rest)
  {
    var ms := [Span(i, j)] + rest;
    forall k | 0 <= k < |ms|
      ensures i <= ms[k].start && IsMaximalRun(s, ms[k])
    {
      if k > 0 {
        assert ms[k] == rest[k - 1];
      }
    }
    forall k, l | 0 <= k < l < |ms|
      ensures ms[k].end < ms[l].start
    {
      assert ms[l] == rest[l - 1];
      assert IsMaximalRun(s, rest[l - 1]);
      if k > 0 {
        assert ms[k] == rest[k - 1];
      }
    }
    forall p | i <= p < |s| && IsDigit(s[p])
      ensures exists k :: 0 <= k < |ms| && ms[k].start <= p < ms[k].end
    {
      if p < j {
        assert ms[0].start <= p < ms[0].end;
      } else {
        var k :| 0 <= k < |rest| && rest[k].start <= p < rest[k].end;
        assert ms[k + 1] == rest[k];
      }
    }
  }

  /** Every scan resumed at a boundary reports the maximal runs after it. */
  lemma {:induction false} MatchesFromCover(s: string, i: nat)
    requires AtBoundary(s, i)
    ensures IsRunCoverFrom(s, i, MatchesFrom(s, i))
    decreases |s| - i
  {
    if i == |s| {
    } else if !IsDigit(s[i]) {
      MatchesFromCover(s, i + 1);
    } else {
      var j := RunEnd(s, i);
      MatchesFromCover(s, j);
      assert IsMaximalRun(s, Span(i, j));
      ConsCover(s, i, j, MatchesFrom(s, j));
    }
  }

  /** Any list of spans that lists the maximal runs after a boundary is the
      one the scan reports. */
  lemma {:induction false} CoverUniqueFrom(s: string, i: nat, ms: seq<Span>)
    requires AtBoundary(s, i)
    requires IsRunCoverFrom(s, i, ms)
    ensures ms == MatchesFrom(s, i)
    decreases |s| - i
  {
    if i == |s| {
    } else if !IsDigit(s[i]) {
      forall k | 0 <= k < |ms|
        ensures i + 1 <= ms[k].start
      {
        assert IsMaximalRun(s, ms[k]);
      }
      CoverUniqueFrom(s, i + 1, ms);
    } else {
      var j := RunEnd(s, i);
      var k0 :| 0 <= k0 < |ms| && ms[k0].start <= i < ms[k0].end;
      assert i <= ms[0].start && ms[0].start < ms[0].end;
      assert k0 == 0;
      assert IsMaximalRun(s, ms[0]);
      assert ms[0].end == j;
      var rest := ms[1..];
      TailCover(s, i, j, ms);
      CoverUniqueFrom(s, j, rest);
      assert ms == [Span(i, j)] + rest;
    }
  }

  /** Dropping the first run of a cover leaves a cover of what follows it. */
  lemma TailCover(s: string, i: nat, j: nat, ms: seq<Span>)
    requires IsRunCoverFrom(s, i, ms)
    requires |ms| > 0 && ms[0] == Span(i, j)
    ensures IsRunCoverFrom(s, j, ms[1..])
  {
    var rest := ms[1..];
    forall k | 0 <= k < |rest|
      ensures j <= rest[k].start && IsMaximalRun(s, rest[k])
    {
      assert rest[k] == ms[k + 1];
    }
    forall k, l | 0 <= k < l < |rest|
      ensures rest[k].end < rest[l].start
    {
      assert rest[k] == ms[k + 1] && rest[l] == ms[l + 1];
    }
    forall p | j <= p < |s| && IsDigit(s[p])
      ensures exists k :: 0 <= k < |rest| && rest[k].start <= p < rest[k].end
    {
      var k :| 0 <= k < |ms| && ms[k].start <= p < ms[k].end;
      assert k != 0;
      assert rest[k - 1] == ms[k];
    }
  }

  /** The maximal digit runs determine the matches: any left-to-right list
      of all maximal runs of `s` is `findAll`'s. */
  lemma RunCoverUnique(s: string, ms: seq<Span>)
    requires IsRunCover(s, ms)
    ensures ms == FindAll(s)
  {
    CoverUniqueFrom(s, 0, ms);
  }

  /** The spans moved `d` positions to the right. */
  function Shift(ms: seq<Span>, d: nat): (r: seq<Span>)
    ensures |r| == |ms|
    ensures forall k :: 0 <= k < |ms| ==> r[k] == Span(ms[k].start + d, ms[k].end + d)
  {
    seq(|ms|, k requires 0 <= k < |ms| => Span(ms[k].start + d, ms[k].end + d))
  }

  /** A maximal run of `a` stays maximal when a separator follows `a`. */
  lemma LeftRunStaysMaximal(a: string, sep: string, b: string, m: Span)
    requires |sep| > 0 && DigitFree(sep)
    requires IsMaximalRun(a, m)
    ensures IsMaximalRun(a + sep + b, m)
  {
    var t := a + sep + b;
    assert forall q :: 0 <= q < |a| ==> t[q] == a[q];
    assert m.end == |a| ==> t[m.end] == sep[0];
  }

  /** A maximal run of `b` stays maximal, shifted, when a separator precedes
      `b`. */
  lemma RightRunStaysMaximal(a: string, sep: string, b: string, m: Span)
    requires |sep| > 0 && DigitFree(sep)
    requires IsMaximalRun(b, m)
    ensures IsMaximalRun(a + sep + b, Span(m.start + |a| + |sep|, m.end + |a| + |sep|))
  {
    var t := a + sep + b;
    var off := |a| + |sep|;
    assert forall q :: 0 <= q < |b| ==> t[q + off] == b[q];
    assert m.start == 0 ==> t[off - 1] == sep[|sep| - 1];
  }

  /** The runs of `a`, then those of `b` moved past a non-empty separator,
      are maximal runs of `a + sep + b`. */
  lemma SplitRunsMaximal(a: string, sep: string, b: string, A: seq<Span>, B: seq<Span>, C: seq<Span>)
    requires |sep| > 0 && DigitFree(sep)
    requires IsRunCover(a, A) && IsRunCover(b, B)
    requires C == A + Shift(B, |a| + |sep|)
    ensures forall k :: 0 <= k < |C| ==> IsMaximalRun(a + sep + b, C[k])
  {
    forall k | 0 <= k < |C|
      ensures IsMaximalRun(a + sep + b, C[k])
    {
      if k < |A| {
        assert C[k] == A[k];
        LeftRunStaysMaximal(a, sep, b, A[k]);
      } else {
        assert C[k] == Span(B[k - |A|].start + |a| + |sep|, B[k - |A|].end + |a| + |sep|);
        RightRunStaysMaximal(a, sep, b, B[k - |A|]);
      }
    }
  }

  /** The combined runs are still in strictly increasing order. */
  lemma SplitRunsOrdered(a: string, sep: string, b: string, A: seq<Span>, B: seq<Span>, C: seq<Span>)
    requires |sep| > 0
    requires IsRunCover(a, A) && IsRunCover(b, B)
    requires C == A + Shift(B, |a| + |sep|)
    ensures forall k, l :: 0 <= k < l < |C| ==> C[k].end < C[l].start
  {
    var off := |a| + |sep|;
    forall k, l | 0 <= k < l < |C|
      ensures C[k].end < C[l].start
    {
      if l < |A| {
        assert C[k] == A[k] && C[l] == A[l];
      } else if k < |A| {
        assert C[k] == A[k] && C[l].start == B[l - |A|].start + off;
        assert IsMaximalRun(a, A[k]);
      } else {
        assert C[k].end == B[k - |A|].end + off && C[l].start == B[l - |A|].start + off;
      }
    }
  }

  /** Every digit of `a + sep + b` lies in one of the combined runs. */
  lemma SplitRunsCover(a: string, sep: string, b: string, A: seq<Span>, B: seq<Span>, C: seq<Span>, t: string)
    requires DigitFree(sep)
    requires IsRunCover(a, A) && IsRunCover(b, B)
    requires C == A + Shift(B, |a| + |sep|) && t == a + sep + b
    ensures forall p :: 0 <= p < |t| && IsDigit(t[p]) ==>
      exists k :: 0 <= k < |C| && C[k].start <= p < C[k].end
  {
    var off := |a| + |sep|;
    forall p | 0 <= p < |t| && IsDigit(t[p])
      ensures exists k :: 0 <= k < |C| && C[k].start <= p < C[k].end
    {
      if p < |a| {
        assert a[p] == t[p];
        var k :| 0 <= k < |A| && A[k].start <= p < A[k].end;
        assert C[k] == A[k];
      } else {
        assert b[p - off] == t[p];
        var k :| 0 <= k < |B| && B[k].start <= p - off < B[k].end;
        assert C[|A| + k] == Span(B[k].start + off, B[k].end + off);
      }
    }
  }

  /** Splitting the text at a non-empty run of separators splits the
      matches: those of the left part, then those of the right part moved
      past the separators. */
  lemma FindAllSplit(a: string, sep: string, b: string)
    requires |sep| > 0 && DigitFree(sep)
    ensures FindAll(a + sep + b) == FindAll(a) + Shift(FindAll(b), |a| + |sep|)
  {
    var A, B := FindAll(a), FindAll(b);
    var C := A + Shift(B, |a| + |sep|);
    var t := a + sep + b;
    FindAllRuns(a);
    FindAllRuns(b);
    SplitRunsAreCover(a, sep, b, A, B, C, t);
    RunCoverUnique(t, C);
  }

  /** The runs of both parts, the right ones moved past the separators,
      are the maximal runs of the joined text. */
  lemma SplitRunsAreCover(a: string, sep: string, b: string, A: seq<Span>, B: seq<Span>, C: seq<Span>, t: string)
    requires |sep| > 0 && DigitFree(sep)
    requires IsRunCover(a, A) && IsRunCover(b, B)
    requires C == A + Shift(B, |a| + |sep|) && t == a + sep + b
    ensures IsRunCover(t, C)
  {
    SplitRunsMaximal(a, sep, b, A, B, C);
    SplitRunsOrdered(a, sep, b, A, B, C);
    SplitRunsCover(a, sep, b, A, B, C, t);
  }

  /** Slicing the joined text at the combined spans gives the slices of the
      two parts. */
  lemma SlicesSplit(a: string, sep: string, b: string, A: seq<Span>, B: seq<Span>)
    requires forall k :: 0 <= k < |A| ==> A[k].start <= A[k].end <= |a|
    requires forall k :: 0 <= k < |B| ==> B[k].start <= B[k].end <= |b|
    ensures Slices(a + sep + b, A + Shift(B, |a| + |sep|)) == Slices(a, A) + Slices(b, B)
  {
    var t := a + sep + b;
    var off := |a| + |sep|;
    var C := A + Shift(B, off);
    assert t[..|a|] == a;
    assert t[off..] == b;
    forall k | 0 <= k < |C|
      ensures Slices(t, C)[k] == (Slices(a, A) + Slices(b, B))[k]
    {
      if k < |A| {
        assert C[k] == A[k];
        assert t[A[k].start..A[k].end] == t[..|a|][A[k].start..A[k].end];
      } else {
        var m := B[k - |A|];
        assert C[k] == Span(m.start + off, m.end + off);
        assert t[m.start + off..m.end + off] == t[off..][m.start..m.end];
      }
    }
  }

  /** Splitting the text at a non-empty run of separators splits the
      tokens: Tokens(a + sep + b) == Tokens(a) + Tokens(b), however many
      separator characters there are. */
  lemma TokensSplit(a: string, sep: string, b: string)
    requires |sep| > 0 && DigitFree(sep)
    ensures Tokens(a + sep + b) == Tokens(a) + Tokens(b)
  {
    FindAllSplit(a, sep, b);
    var A, B := FindAll(a), FindAll(b);
    FindAllRuns(a);
    FindAllRuns(b);
    assert forall k :: 0 <= k < |A| ==> IsMaximalRun(a, A[k]);
    assert forall k :: 0 <= k < |B| ==> IsMaximalRun(b, B[k]);
    SlicesSplit(a, sep, b, A, B);
  }

  /** Separators in front of a text produce no tokens. */
  lemma TokensAfterSeparators(d: string, s: string)
    requires DigitFree(d)
    ensures Tokens(d + s) == Tokens(s)
  {
    if |d| > 0 {
      var none: string := "";
      assert none + d + s == d + s;
      TokensEmpty(none);
      TokensSplit(none, d, s);
    } else {
      assert d + s == s;
    }
  }

  /** A text without digits has no tokens, and a text with a digit has at
      least one. */
  lemma TokensEmpty(s: string)
    ensures Tokens(s) == [] <==> DigitFree(s)
  {
    var ms := FindAll(s);
    FindAllRuns(s);
    if |ms| > 0 {
      assert IsMaximalRun(s, ms[0]);
      assert IsDigit(s[ms[0].start]);
    }
  }

  /** A text made only of digits is a single token. */
  lemma TokensOfRun(s: string)
    requires |s| >= 1 && AllDigits(s)
    ensures Tokens(s) == [s]
  {
    var ms := [Span(0, |s|)];
    assert IsMaximalRun(s, ms[0]);
    assert IsRunCover(s, ms);
    RunCoverUnique(s, ms);
    assert s[0..|s|] == s;
  }
  /** `seps[0] + runs[0] + seps[1] + ... + runs[n-1] + seps[n]`. */
  function Interleave(seps: seq<string>, runs: seq<string>): string
    requires |seps| == |runs| + 1
    decreases |runs|
  {
    if |runs| == 0 then seps[0] else seps[0] + (runs[0] + Interleave(seps[1..], runs[1..]))
  }

  /** One more separator and run in front of an interleaving. */
  lemma InterleaveCons(seps: seq<string>, runs: seq<string>, rest: string)
    requires |seps| == |runs| + 1 && |runs| > 0
    requires Interleave(seps[1..], runs[1..]) == rest
    ensures Interleave(seps, runs) == seps[0] + (runs[0] + rest)
  {
  }

  /** Runs of digits kept apart by non-empty separators come back as the
      tokens, in order; the separators at either end may be empty. */
  lemma {:induction false} TokensInterleaved(seps: seq<string>, runs: seq<string>)
    requires |seps| == |runs| + 1
    requires forall k :: 0 <= k < |seps| ==> DigitFree(seps[k])
    requires forall k :: 0 < k < |runs| ==> |seps[k]| > 0
    requires forall k :: 0 <= k < |runs| ==> |runs[k]| >= 1 && AllDigits(runs[k])
    ensures Tokens(Interleave(seps, runs)) == runs
    decreases |runs|
  {
    if |runs| == 0 {
      TokensEmpty(seps[0]);
    } else {
      var rest := Interleave(seps[1..], runs[1..]);
      TokensInterleaved(seps[1..], runs[1..]);
      TokensOfRun(runs[0]);
      if |runs| == 1 {
        assert rest == seps[1] && runs[1..] == [];
        assert [runs[0]] + runs[1..] == [runs[0]];
        if |seps[1]| == 0 {
          assert runs[0] + rest == runs[0];
        } else {
          var none: string := "";
          TokensEmpty(none);
          assert runs[0] + rest == runs[0] + seps[1] + none;
          TokensSplit(runs[0], seps[1], none);
        }
      } else {
        var tail := runs[1] + Interleave(seps[2..], runs[2..]);
        assert seps[1..][1..] == seps[2..] && runs[1..][1..] == runs[2..];
        assert rest == seps[1] + tail;
        assert runs[0] + rest == runs[0] + seps[1] + tail;
        TokensSplit(runs[0], seps[1], tail);
        TokensAfterSeparators(seps[1], tail);
      }
      assert Tokens(runs[0] + rest) == [runs[0]] + runs[1..];
      assert Interleave(seps, runs) == seps[0] + (runs[0] + rest);
      TokensAfterSeparators(seps[0], runs[0] + rest);
      assert [runs[0]] + runs[1..] == runs;
    }
  }
}

=== FILE: extraction.dfy ===
/** The number extraction shared by the app and its test helpers:
    `Regex("\\d+").findAll(text).map { it.value.toInt() }.toList()`. */
module Extraction {
  import opened Wrappers
  import opened KotlinInt
  import opened Decimal
  import opened Render
  import opened DigitRuns

  /** The `NumberFormatException` that `String.toInt()` throws for a run of
      digits whose value does not fit in an `Int`, with that run. */
  datatype NumberFormatError = NumberFormat(run: string)

  predicate IsRun(t: string) {
    |t| >= 1 && AllDigits(t)
  }

  predicate AreRuns(ts: seq<string>) {
    forall k :: 0 <= k < |ts| ==> IsRun(ts[k])
  }

  /** Every run's value fits in an `Int`. */
  ghost predicate AllFit(ts: seq<string>)
    requires AreRuns(ts)
  {
    forall k :: 0 <= k < |ts| ==> Value(ts[k]) <= MaxInt
  }

  /** `String.toInt()` applied to a run of digits: its value, or
      `NumberFormatException` when the value exceeds `Int.MAX_VALUE`. */
  function RunToInt(run: string): (r: Result<Int32, NumberFormatError>)
    requires IsRun(run)
    ensures r.Success? <==> Value(run) <= MaxInt
    ensures r.Success? ==> r.value == Value(run)
    ensures r.Failure? ==> r.error == NumberFormat(run)
  {
    if Value(run) <= MaxInt then Success(Value(run)) else Failure(NumberFormat(run))
  }

  /** What `toInt()` reads from a run: it gives `n` exactly when `n` fits
      in an `Int` and the run is `n.toString()` behind some leading zeros. */
  lemma RunToIntReads(run: string, n: nat)
    requires IsRun(run)
    ensures RunToInt(run).Success? && RunToInt(run).value == n
            <==> n <= MaxInt && exists z :: AllZeros(z) && run == z + NatToString(n)
  {
    if exists z :: AllZeros(z) && run == z + NatToString(n) {
      var z :| AllZeros(z) && run == z + NatToString(n);
      LeadingZeros(z, NatToString(n));
    }
    ZerosThenCanonical(run);
  }

  /** `.map { it.value.toInt() }.toList()` over the runs, in order: the
      values, or the exception for a run that does not fit. */
  function RunsToInts(ts: seq<string>): (r: Result<seq<Int32>, NumberFormatError>)
    requires AreRuns(ts)
    ensures r.Success? <==> AllFit(ts)
    ensures r.Success? ==> |r.value| == |ts| && forall k {:trigger r.value[k]} :: 0 <= k < |ts| ==> r.value[k] == Value(ts[k])
    ensures r.Failure? ==> exists k :: 0 <= k < |ts| && r.error == NumberFormat(ts[k]) && Value(ts[k]) > MaxInt
  {
    if |ts| == 0 then Success([])
    else
      match RunToInt(ts[0])
      case Failure(e) => Failure(e)
      case Success(v) =>
        match RunsToInts(ts[1..])
        case Failure(e) => Failure(e)
        case Success(vs) => Success([v] + vs)
  }

  /** The sequence is lazy, so the exception is the one for the FIRST run
      that does not fit: every run before it fits. */
  lemma {:induction false} RunsToIntsFirstFailure(ts: seq<string>)
    requires AreRuns(ts)
    requires RunsToInts(ts).Failure?
    ensures exists k :: 0 <= k < |ts| && RunsToInts(ts).error == NumberFormat(ts[k])
                        && Value(ts[k]) > MaxInt && AllFit(ts[..k])
  {
    if RunToInt(ts[0]).Failure? {
      assert AllFit(ts[..0]);
    } else {
      var rest := ts[1..];
      assert RunsToInts(ts) == RunsToInts(rest);
      RunsToIntsFirstFailure(rest);
      var k :| 0 <= k < |rest| && RunsToInts(rest).error == NumberFormat(rest[k])
               && Value(rest[k]) > MaxInt && AllFit(rest[..k]);
      FitsBefore(ts, k);
    }
  }

  /** A run that fits, in front of runs that fit, gives runs that fit. */
  lemma FitsBefore(ts: seq<string>, k: nat)
    requires AreRuns(ts) && k + 1 < |ts|
    requires Value(ts[0]) <= MaxInt && AllFit(ts[1..][..k])
    ensures AllFit(ts[..k + 1]) && ts[k + 1] == ts[1..][k]
  {
    assert ts[..k + 1] == [ts[0]] + ts[1..][..k];
  }

  /** The numbers the app reads from a recognized text: one per maximal
      run of ASCII digits, left to right, each the base-10 value of its
      run; or the exception for the first run too large for an `Int`. */
  function Extract(text: string): (r: Result<seq<Int32>, NumberFormatError>)
    ensures r.Success? <==> AllFit(Tokens(text))
    ensures r.Success? ==> |r.value| == |FindAll(text)|
    ensures r.Success? ==> forall k :: 0 <= k < |r.value| ==> 0 <= r.value[k] == Value(Tokens(text)[k])
    ensures r.Failure? ==> exists k :: 0 <= k < |Tokens(text)| && r.error.run == Tokens(text)[k]
                                       && Value(Tokens(text)[k]) > MaxInt
  {
    RunsToInts(Tokens(text))
  }

  /** The outcome of extracting from two texts one after the other: the
      first exception, or both lists concatenated. */
  function AppendResults(x: Result<seq<Int32>, NumberFormatError>,
                         y: Result<seq<Int32>, NumberFormatError>): Result<seq<Int32>, NumberFormatError>
  {
    match x
    case Failure(e) => Failure(e)
    case Success(u) =>
      match y
      case Failure(e) => Failure(e)
      case Success(v) => Success(u + v)
  }

  /** Converting a concatenation of runs converts the two parts in order. */
  lemma {:induction false} RunsToIntsAppend(xs: seq<string>, ys: seq<string>)
    requires AreRuns(xs) && AreRuns(ys)
    ensures AreRuns(xs + ys)
    ensures RunsToInts(xs + ys) == AppendResults(RunsToInts(xs), RunsToInts(ys))
    decreases |xs|
  {
    if |xs| == 0 {
      assert xs + ys == ys;
      assert forall v: seq<Int32> :: [] + v == v;
    } else {
      var zs := xs + ys;
      assert zs[0] == xs[0] && zs[1..] == xs[1..] + ys;
      RunsToIntsAppend(xs[1..], ys);
      if RunToInt(xs[0]).Success? && RunsToInts(xs[1..]).Success? && RunsToInts(ys).Success? {
        var v, u, w := RunToInt(xs[0]).value, RunsToInts(xs[1..]).value, RunsToInts(ys).value;
        assert [v] + (u + w) == ([v] + u) + w;
      }
    }
  }

  /** Every non-digit character only separates: extracting from
      `a + sep + b`, with `sep` a non-empty run of non-digits, extracts from
      `a` and then from `b`. */
  lemma ExtractSplit(a: string, sep: string, b: string)
    requires |sep| > 0 && DigitFree(sep)
    ensures Extract(a + sep + b) == AppendResults(Extract(a), Extract(b))
  {
    TokensSplit(a, sep, b);
    RunsToIntsAppend(Tokens(a), Tokens(b));
  }

  /** Extraction yields the empty list exactly when the text has no digit. */
  lemma ExtractEmpty(text: string)
    ensures Extract(text) == Success([]) <==> DigitFree(text)
  {
    TokensEmpty(text);
  }

  /** A text that is one run of digits, leading zeros included, extracts
      to its value, or fails when the value exceeds `Int.MAX_VALUE`. */
  lemma ExtractRun(run: string)
    requires IsRun(run)
    ensures Extract(run) == if Value(run) <= MaxInt then Success([Value(run)])
                            else Failure(NumberFormat(run))
  {
    TokensOfRun(run);
    var ts := [run];
    assert ts[1..] == [];
    assert RunsToInts(ts[1..]) == Success([]);
    if Value(run) <= MaxInt {
      assert RunToInt(run) == Success(Value(run));
      var v: Int32 := Value(run);
      assert RunsToInts(ts) == Success([v] + []);
      assert [v] + [] == [v];
      assert Extract(run) == Success([v]);
    } else {
      assert RunsToInts(ts) == Failure(NumberFormat(run));
    }
  }

  /** A run of at most nine digits always fits in an `Int`. */
  lemma ShortRunFits(run: string)
    requires IsRun(run) && |run| <= 9
    ensures RunToInt(run) == Success(Value(run))
  {
    ValueBound(run);
    var n := |run|;
    assert Pow10(n) <= Pow10(9) by {
      var m := n;
      while m < 9
        invariant n <= m <= 9
        invariant Pow10(n) <= Pow10(m)
      {
        m := m + 1;
      }
    }
  }

  /** The digit runs of each element's rendering: the sign of a negative
      value is a separator, so only the magnitude is left. */
  function Magnitudes(xs: seq<int>): (r: seq<string>)
    ensures |r| == |xs|
  {
    seq(|xs|, k requires 0 <= k < |xs| => NatToString(Abs(xs[k])))
  }

  /** An `Int` rendered by `toString()` is one token: its magnitude. */
  lemma TokensOfIntString(i: int)
    ensures Tokens(IntToString(i)) == [NatToString(Abs(i))]
  {
    TokensOfRun(NatToString(Abs(i)));
    if i < 0 {
      TokensAfterSeparators("-", NatToString(-i));
    }
  }

  /** Scanning numbers rendered and joined by a non-empty separator without
      digits gives back the rendering of each number's magnitude. */
  lemma {:induction false} TokensOfRendered(sep: string, xs: seq<int>)
    requires |sep| > 0 && DigitFree(sep)
    ensures Tokens(JoinToString(sep, xs)) == Magnitudes(xs)
    decreases |xs|
  {
    if |xs| == 0 {
      TokensEmpty("");
    } else if |xs| == 1 {
      TokensOfIntString(xs[0]);
    } else {
      var head, rest := IntToString(xs[0]), JoinToString(sep, xs[1..]);
      assert Tokens(JoinToString(sep, xs)) == Tokens(head) + Tokens(rest) by {
        RenderedTokensStep(sep, xs);
      }
      assert Tokens(head) == [NatToString(Abs(xs[0]))] by {
        TokensOfIntString(xs[0]);
      }
      assert Tokens(rest) == Magnitudes(xs[1..]) by {
        TokensOfRendered(sep, xs[1..]);
      }
      assert Magnitudes(xs) == [NatToString(Abs(xs[0]))] + Magnitudes(xs[1..]);
    }
  }

  /** The tokens of several rendered numbers are those of the first,
      then those of the rest. */
  lemma RenderedTokensStep(sep: string, xs: seq<int>)
    requires |sep| > 0 && DigitFree(sep)
    requires |xs| >= 2
    ensures Tokens(JoinToString(sep, xs)) == Tokens(IntToString(xs[0])) + Tokens(JoinToString(sep, xs[1..]))
  {
    var head, rest := IntToString(xs[0]), JoinToString(sep, xs[1..]);
    assert Renderings(xs)[1..] == Renderings(xs[1..]);
    assert JoinToString(sep, xs) == head + sep + rest;
    TokensSplit(head, sep, rest);
  }

  /** The magnitude of `Int.MIN_VALUE`, the one `Int` whose magnitude is
      not an `Int`. */
  lemma MinIntMagnitude()
    ensures NatToString(Abs(MinInt)) == "2147483648"
  {
    NatToStringSnoc(21, "2", '1');
    NatToStringSnoc(214, "21", '4');
    NatToStringSnoc(2147, "214", '7');
    NatToStringSnoc(21474, "2147", '4');
    NatToStringSnoc(214748, "21474", '8');
    NatToStringSnoc(2147483, "214748", '3');
    NatToStringSnoc(21474836, "2147483", '6');
    NatToStringSnoc(214748364, "21474836", '4');
    NatToStringSnoc(2147483648, "214748364", '8');
  }

  /** Converting the magnitude renderings of `Int`s gives the magnitudes,
      unless one of them is `Int.MIN_VALUE`. */
  lemma MagnitudesToInts(xs: seq<Int32>)
    ensures AreRuns(Magnitudes(xs))
    ensures var r := RunsToInts(Magnitudes(xs));
      && (r.Success? <==> MinInt !in xs)
      && (r.Success? ==> |r.value| == |xs| && forall k :: 0 <= k < |xs| ==> r.value[k] == Abs(xs[k]))
      && (r.Failure? ==> r.error == NumberFormat("2147483648"))
  {
    var ts := Magnitudes(xs);
    forall k | 0 <= k < |xs|
      ensures IsRun(ts[k]) && Value(ts[k]) == Abs(xs[k])
      ensures Value(ts[k]) <= MaxInt <==> xs[k] != MinInt
    {
      assert ts[k] == NatToString(Abs(xs[k]));
    }
    var r := RunsToInts(ts);
    assert AllFit(ts) <==> MinInt !in xs;
    if r.Failure? {
      var k :| 0 <= k < |ts| && r.error == NumberFormat(ts[k]) && Value(ts[k]) > MaxInt;
      assert xs[k] == MinInt;
      MinIntMagnitude();
    }
  }

  /** Round trip: extracting from `Int`s rendered and joined by a
      non-empty, digit-free separator yields their magnitudes, unless one
      of them is `Int.MIN_VALUE`, whose magnitude 2147483648 makes
      `toInt()` throw. */
  lemma ExtractRendered(sep: string, xs: seq<Int32>)
    requires |sep| > 0 && DigitFree(sep)
    ensures var r := Extract(JoinToString(sep, xs));
      && (r.Success? <==> MinInt !in xs)
      && (r.Success? ==> |r.value| == |xs| && forall k :: 0 <= k < |xs| ==> r.value[k] == Abs(xs[k]))
      && (r.Failure? ==> r.error == NumberFormat("2147483648"))
  {
    TokensOfRendered(sep, xs);
    MagnitudesToInts(xs);
  }

  /** Round trip for non-negative numbers: they come back unchanged. */
  lemma ExtractRenderedNonNegative(sep: string, xs: seq<Int32>)
    requires |sep| > 0 && DigitFree(sep)
    requires forall k :: 0 <= k < |xs| ==> 0 <= xs[k]
    ensures Extract(JoinToString(sep, xs)) == Success(xs)
  {
    ExtractRendered(sep, xs);
    assert MinInt !in xs;
    var r := Extract(JoinToString(sep, xs));
    assert r.value == xs;
  }
  /** Separators in front of a text change nothing about what is
      extracted from it. */
  lemma ExtractAfterSeparators(d: string, s: string)
    requires DigitFree(d)
    ensures Extract(d + s) == Extract(s)
  {
    TokensAfterSeparators(d, s);
  }
}

=== FILE: kotlin_int.dfy ===
/** Kotlin's `Int` on the JVM: the 32-bit two's-complement range, the
    wrap-around of `+` on overflow, and `Iterable<Int>.sum()`. */
module KotlinInt {

  const MinInt: int := -0x8000_0000
  const MaxInt: int := 0x7FFF_FFFF
  /** 2^32, the number of distinct `Int` values. */
  const Modulus: int := 0x1_0000_0000

  /** The values an `Int` can hold. */
  type Int32 = x: int | MinInt <= x <= MaxInt

  /** The `Int` that an exact integer result becomes after 32-bit
      two's-complement overflow. */
  function Wrap(x: int): (r: Int32)
    ensures (x - r) % Modulus == 0
    ensures MinInt <= x <= MaxInt ==> r == x
  {
    (x - MinInt) % Modulus + MinInt
  }

  /** Adding a multiple of 2^32 does not change a remainder modulo 2^32. */
  lemma ModAddMultiple(x: int, q: int)
    ensures (x + q * Modulus) % Modulus == x % Modulus
  {
    var d, m := x / Modulus, x % Modulus;
    assert x == d * Modulus + m;
    assert x + q * Modulus == (d + q) * Modulus + m;
  }

  /** Wrapping after every addition gives the same `Int` as wrapping once,
      at the end, the exact total. */
  lemma WrapAdd(a: int, b: int)
    ensures Wrap(Wrap(a) + b) == Wrap(a + b)
  {
    var y := a - MinInt;
    var q := y / Modulus;
    assert y == q * Modulus + y % Modulus;
    assert Wrap(a) + b - MinInt == (a + b - MinInt) + (-q) * Modulus;
    ModAddMultiple(a + b - MinInt, -q);
  }

  /** The exact total of a list, accumulated from the left. */
  function Sum(xs: seq<int>): int
  {
    if |xs| == 0 then 0 else Sum(xs[..|xs| - 1]) + xs[|xs| - 1]
  }

  /** `Iterable<Int>.sum()`: an `Int` accumulator that starts at 0 and takes
      `sum += element` for each element in order, every addition wrapping
      in 32 bits. */
  function IntSum(xs: seq<Int32>): (r: Int32)
    ensures r == Wrap(Sum(xs))
    ensures MinInt <= Sum(xs) <= MaxInt ==> r == Sum(xs)
  {
    if |xs| == 0 then 0
    else
      var init := xs[..|xs| - 1];
      var acc := IntSum(init);
      WrapAdd(Sum(init), xs[|xs| - 1]);
      Wrap(acc + xs[|xs| - 1])
  }

  /** A list of non-negative values has a non-negative total, no smaller
      than any one of its elements. */
  lemma {:induction false} SumOfNonNegative(xs: seq<int>)
    requires forall k :: 0 <= k < |xs| ==> 0 <= xs[k]
    ensures 0 <= Sum(xs)
    ensures forall k :: 0 <= k < |xs| ==> xs[k] <= Sum(xs)
  {
    if |xs| > 0 {
      SumOfNonNegative(xs[..|xs| - 1]);
      assert forall k :: 0 <= k < |xs| - 1 ==> xs[..|xs| - 1][k] == xs[k];
    }
  }

  /** The total of a concatenation is the sum of the totals. */
  lemma {:induction false} SumAppend(xs: seq<int>, ys: seq<int>)
    ensures Sum(xs + ys) == Sum(xs) + Sum(ys)
    decreases |ys|
  {
    if |ys| == 0 {
      assert xs + ys == xs;
    } else {
      var ys' := ys[..|ys| - 1];
      assert (xs + ys)[..|xs + ys| - 1] == xs + ys';
      SumAppend(xs, ys');
    }
  }

  /** `sum()` of a concatenation is the 32-bit sum of the two lists'
      `sum()`s. */
  lemma IntSumAppend(xs: seq<Int32>, ys: seq<Int32>)
    ensures IntSum(xs + ys) == Wrap(IntSum(xs) + IntSum(ys))
  {
    var sx, sy := Sum(xs), Sum(ys);
    SumAppend(xs, ys);
    WrapAdd(sx, Wrap(sy));
    WrapAdd(sy, sx);
  }
}

=== FILE: main_activity.dfy ===
/** The text-to-label step of the app's `processImageProxy`: what the
    success listener does with the text the recognizer returns. Camera,
    recognizer and UI thread are outside this model; the recognized text is
    its input and the label it would show is its output. */
module MainActivity {
  import opened Wrappers
  import opened KotlinInt
  import opened Decimal
  import opened Render
  import opened DigitRuns
  import opened Extraction

  /** The values the listener computes for one recognized text: `nums`,
      `sum`, and the string assigned to `txtResult.text` (`display`). */
  datatype Reading = Reading(nums: seq<Int32>, sum: Int32, display: string)

  /** `"Detected: $nums\nSum: $sum"`. */
  function DetectedLabel(nums: seq<int>, sum: int): string
  {
    "Detected: " + ListToString(nums) + "\nSum: " + IntToString(sum)
  }

  /** The success listener applied to `result.text`: extract the numbers,
      add them with `List<Int>.sum()`, and format the label. A run too
      large for an `Int` (a ten-digit phone number, say) makes `toInt()`
      throw `NumberFormatException`; the listener does not catch it, so the
      exception escapes the success callback and no label is set. The
      failure result stands for that escaping exception. */
  function OnTextRecognized(text: string): (r: Result<Reading, NumberFormatError>)
    ensures r.Success? <==> AllFit(Tokens(text))
    ensures r.Success? ==> |r.value.nums| == |FindAll(text)|
    ensures r.Success? ==> forall k :: 0 <= k < |r.value.nums| ==>
                             0 <= r.value.nums[k] == Value(Tokens(text)[k])
    ensures r.Success? ==> r.value.sum == Wrap(Sum(r.value.nums))
    ensures r.Success? && Sum(r.value.nums) <= MaxInt ==> r.value.sum == Sum(r.value.nums)
    ensures r.Success? ==> r.value.display == DetectedLabel(r.value.nums, r.value.sum)
    ensures r.Failure? ==> exists k :: 0 <= k < |Tokens(text)| && r.error.run == Tokens(text)[k]
                                       && Value(Tokens(text)[k]) > MaxInt
  {
    match Extract(text)
    case Failure(e) => Failure(e)
    case Success(nums) =>
      SumOfNonNegative(nums);
      var sum := IntSum(nums);
      Success(Reading(nums, sum, DetectedLabel(nums, sum)))
  }

  /** When the exact total fits in an `Int`, the displayed sum is that
      total: non-negative and no smaller than any detected number. */
  lemma ExactSum(text: string)
    requires OnTextRecognized(text).Success?
    requires Sum(OnTextRecognized(text).value.nums) <= MaxInt
    ensures var r := OnTextRecognized(text).value;
      && r.sum == Sum(r.nums) >= 0
      && forall k :: 0 <= k < |r.nums| ==> r.nums[k] <= r.sum
  {
    SumOfNonNegative(OnTextRecognized(text).value.nums);
  }

  /** A text without digits, the empty text included, shows an empty list
      and sum 0; and that is the only way to get that reading. */
  lemma NoDigitsReading(text: string)
    ensures OnTextRecognized(text) == Success(Reading([], 0, "Detected: []\nSum: 0"))
            <==> DigitFree(text)
  {
    ExtractEmpty(text);
    var none: seq<Int32> := [];
    assert DetectedLabel(none, 0) == "Detected: []\nSum: 0" by {
      assert ListToString(none) == "[]";
      assert IntToString(0) == "0";
    }
    if DigitFree(text) {
      assert Extract(text) == Success(none);
      assert IntSum(none) == 0;
    }
    if OnTextRecognized(text) == Success(Reading([], 0, "Detected: []\nSum: 0")) {
      assert Extract(text) == Success(none);
    }
  }

  lemma RenderMaxInt()
    ensures IntToString(2147483647) == "2147483647"
  {
    NatToStringSnoc(21, "2", '1');
    NatToStringSnoc(214, "21", '4');
    NatToStringSnoc(2147, "214", '7');
    NatToStringSnoc(21474, "2147", '4');
    NatToStringSnoc(214748, "21474", '8');
    NatToStringSnoc(2147483, "214748", '3');
    NatToStringSnoc(21474836, "2147483", '6');
    NatToStringSnoc(214748364, "21474836", '4');
    NatToStringSnoc(2147483647, "214748364", '7');
  }

  lemma RenderMillions()
    ensures IntToString(999999) == "999999" && IntToString(1000000) == "1000000"
  {
    NatToStringSnoc(99, "9", '9');
    NatToStringSnoc(999, "99", '9');
    NatToStringSnoc(9999, "999", '9');
    NatToStringSnoc(99999, "9999", '9');
    NatToStringSnoc(999999, "99999", '9');
    NatToStringSnoc(10, "1", '0');
    NatToStringSnoc(100, "10", '0');
    NatToStringSnoc(1000, "100", '0');
    NatToStringSnoc(10000, "1000", '0');
    NatToStringSnoc(100000, "10000", '0');
    NatToStringSnoc(1000000, "100000", '0');
  }

  /** The three numbers of the overflow example, rendered as the test text
      and the label render them. */
  lemma OverflowExampleRenderings(xs: seq<Int32>)
    requires xs == [999999, 1000000, 2147483647]
    ensures JoinToString(" ", xs) == "999999 1000000 2147483647"
    ensures ListToString(xs) == "[999999, 1000000, 2147483647]"
  {
    var r := Renderings(xs);
    OverflowExampleStrings(xs, r);
    JoinThree(r);
  }

  lemma OverflowExampleStrings(xs: seq<Int32>, r: seq<string>)
    requires xs == [999999, 1000000, 2147483647] && r == Renderings(xs)
    ensures r == ["999999", "1000000", "2147483647"]
  {
    RenderMaxInt();
    RenderMillions();
    assert r[0] == "999999" && r[1] == "1000000" && r[2] == "2147483647";
  }

  lemma JoinThree(r: seq<string>)
    requires r == ["999999", "1000000", "2147483647"]
    ensures Join(" ", r) == "999999 1000000 2147483647"
    ensures Join(", ", r) == "999999, 1000000, 2147483647"
  {
    var r1 := r[1..];
    assert r1 == ["1000000", "2147483647"];
    assert r1[1..] == ["2147483647"];
    assert Join(" ", r1[1..]) == "2147483647";
    assert Join(" ", r1) == "1000000" + " " + "2147483647";
    assert Join(", ", r1) == "1000000" + ", " + "2147483647";
    assert Join(" ", r) == "999999" + " " + ("1000000" + " " + "2147483647");
    assert Join(", ", r) == "999999" + ", " + ("1000000" + ", " + "2147483647");
  }

  /** The wrapped total of the overflow example, as the label shows it. */
  lemma OverflowExampleSum(xs: seq<Int32>)
    requires xs == [999999, 1000000, 2147483647]
    ensures IntSum(xs) == -2145483650
    ensures IntToString(-2145483650) == "-2145483650"
  {
    assert xs[..2] == [999999, 1000000];
    assert xs[..2][..1] == [999999];
    assert [999999][..0] == [];
    assert Sum([999999]) == 999999;
    assert Sum(xs[..2]) == 1999999;
    assert Sum(xs) == 2149483646;
    NatToStringSnoc(21, "2", '1');
    NatToStringSnoc(214, "21", '4');
    NatToStringSnoc(2145, "214", '5');
    NatToStringSnoc(21454, "2145", '4');
    NatToStringSnoc(214548, "21454", '8');
    NatToStringSnoc(2145483, "214548", '3');
    NatToStringSnoc(21454836, "2145483", '6');
    NatToStringSnoc(214548365, "21454836", '5');
    NatToStringSnoc(2145483650, "214548365", '0');
  }

  /** The reading shown for a text is determined by its extracted numbers. */
  lemma ReadingOf(text: string, nums: seq<Int32>)
    requires Extract(text) == Success(nums)
    ensures OnTextRecognized(text) == Success(Reading(nums, IntSum(nums), DetectedLabel(nums, IntSum(nums))))
  {
  }

  /** `List<Int>.sum()` wraps: three numbers that each fit in an `Int` but
      whose total does not are shown with a negative sum. */
  lemma SumWrapsAround(text: string)
    requires text == "999999 1000000 2147483647"
    ensures OnTextRecognized(text)
            == Success(Reading([999999, 1000000, 2147483647], -2145483650,
                               "Detected: " + "[999999, 1000000, 2147483647]" + "\nSum: " + "-2145483650"))
  {
    var xs: seq<Int32> := [999999, 1000000, 2147483647];
    OverflowExampleExtract(text, xs);
    OverflowExampleReading(text, xs);
  }

  lemma OverflowExampleExtract(text: string, xs: seq<Int32>)
    requires text == "999999 1000000 2147483647"
    requires xs == [999999, 1000000, 2147483647]
    ensures Extract(text) == Success(xs)
  {
    OverflowExampleRenderings(xs);
    ExtractRenderedNonNegative(" ", xs);
  }

  lemma OverflowExampleReading(text: string, xs: seq<Int32>)
    requires xs == [999999, 1000000, 2147483647]
    requires Extract(text) == Success(xs)
    ensures OnTextRecognized(text)
            == Success(Reading(xs, -2145483650,
                               "Detected: " + "[999999, 1000000, 2147483647]" + "\nSum: " + "-2145483650"))
  {
    ReadingOf(text, xs);
    OverflowExampleSum(xs);
    OverflowExampleLabel(xs);
  }

  lemma OverflowExampleLabel(xs: seq<Int32>)
    requires xs == [999999, 1000000, 2147483647]
    ensures DetectedLabel(xs, IntSum(xs))
            == "Detected: " + "[999999, 1000000, 2147483647]" + "\nSum: " + "-2145483650"
  {
    OverflowExampleRenderings(xs);
    OverflowExampleSum(xs);
  }

  /** A ten-digit run above `Int.MAX_VALUE` makes the listener throw. */
  lemma RunTooLarge()
    ensures OnTextRecognized("Total 2147483648") == Failure(NumberFormat("2147483648"))
  {
    MinIntMagnitude();
    var run := "2147483648";
    assert Value(run) == 2147483648;
    assert "Total 2147483648" == "Total " + run;
    TokensAfterSeparators("Total ", run);
    ExtractRun(run);
  }

  /** Scanning the label again finds the magnitude of every number in the
      list, then the magnitude of the sum: the label shows each number in
      full and in order. */
  lemma LabelTokens(nums: seq<int>, sum: int)
    ensures Tokens(DetectedLabel(nums, sum)) == Magnitudes(nums) + [NatToString(Abs(sum))]
  {
    var j := JoinToString(", ", nums);
    var s := IntToString(sum);
    TokensOfIntString(sum);
    if |nums| == 0 {
      assert DetectedLabel(nums, sum) == "Detected: []\nSum: " + s;
      TokensAfterSeparators("Detected: []\nSum: ", s);
    } else {
      var tail := "]\nSum: ";
      assert DetectedLabel(nums, sum) == "Detected: [" + (j + tail + s);
      TokensAfterSeparators("Detected: [", j + tail + s);
      TokensSplit(j, tail, s);
      TokensOfRendered(", ", nums);
    }
  }

  /** The magnitudes of a list with one more element. */
  lemma MagnitudesSnoc(nums: seq<int>, x: int)
    ensures Magnitudes(nums) + [NatToString(Abs(x))] == Magnitudes(nums + [x])
  {
  }

  /** Extracting from a label gives back the detected numbers followed by
      the sum, whenever the numbers are non-negative, as extracted numbers
      are. A sum that wrapped to `Int.MIN_VALUE` (as for the text
      "2147483647 1") renders as "-2147483648", whose digits do not fit an
      `Int`, so extraction from such a label fails on "2147483648". */
  lemma LabelRoundTrip(nums: seq<Int32>, sum: Int32)
    requires forall k :: 0 <= k < |nums| ==> 0 <= nums[k]
    ensures sum != MinInt ==> Extract(DetectedLabel(nums, sum)) == Success(nums + [Abs(sum)])
    ensures sum == MinInt ==> Extract(DetectedLabel(nums, sum)) == Failure(NumberFormat("2147483648"))
  {
    if sum != MinInt {
      LabelReadsBack(nums, sum);
    } else {
      LabelMinIntFails(nums);
    }
  }

  lemma LabelReadsBack(nums: seq<Int32>, sum: Int32)
    requires forall k :: 0 <= k < |nums| ==> 0 <= nums[k]
    requires sum != MinInt
    ensures Extract(DetectedLabel(nums, sum)) == Success(nums + [Abs(sum)])
  {
    var all: seq<Int32> := nums + [sum];
    LabelTokens(nums, sum);
    MagnitudesSnoc(nums, sum);
    MagnitudesToInts(all);
    assert MinInt !in all;
    SnocAbs(nums, sum, RunsToInts(Magnitudes(all)).value);
  }

  lemma LabelMinIntFails(nums: seq<Int32>)
    requires forall k :: 0 <= k < |nums| ==> 0 <= nums[k]
    ensures Extract(DetectedLabel(nums, MinInt)) == Failure(NumberFormat("2147483648"))
  {
    var all: seq<Int32> := nums + [MinInt];
    LabelTokens(nums, MinInt);
    MagnitudesSnoc(nums, MinInt);
    MagnitudesToInts(all);
    assert all[|nums|] == MinInt;
  }

  lemma SnocAbs(nums: seq<Int32>, sum: Int32, vs: seq<Int32>)
    requires forall k :: 0 <= k < |nums| ==> 0 <= nums[k]
    requires |vs| == |nums| + 1
    requires forall k :: 0 <= k < |vs| ==> vs[k] == Abs((nums + [sum])[k])
    ensures vs == nums + [Abs(sum)]
  {
    assert forall k :: 0 <= k < |nums| ==> vs[k] == nums[k];
  }
}

=== FILE: render.dfy ===
/** Kotlin's string renderings used by the app: `Int.toString()`,
    `joinToString(separator)` and the `[a, b, c]` form of `List.toString()`. */
module Render {
  import opened Decimal

  function Abs(i: int): nat
  {
    if i < 0 then -i else i
  }

  /** `Int.toString()`: a minus sign for a negative value, then the
      canonical digits of the magnitude. */
  function IntToString(i: int): string
  {
    if i < 0 then "-" + NatToString(-i) else NatToString(i)
  }

  /** What `Int.toString()` writes: for a non-negative value, digits
      without redundant leading zeros worth that value; for a negative
      one, a minus sign followed by such digits worth its magnitude. */
  lemma IntToStringReads(i: int)
    ensures var r := IntToString(i);
      && (i >= 0 ==> IsCanonical(r) && Value(r) == i)
      && (i < 0 ==> |r| >= 2 && r[0] == '-' && IsCanonical(r[1..]) && Value(r[1..]) == -i)
  {
    if i < 0 {
      var m := NatToString(-i);
      assert IntToString(i)[1..] == m;
    }
  }

  /** The elements separated by `sep`, with nothing before the first or
      after the last. */
  function Join(sep: string, parts: seq<string>): string
  {
    if |parts| == 0 then ""
    else if |parts| == 1 then parts[0]
    else parts[0] + sep + Join(sep, parts[1..])
  }

  /** Each element's `toString()`, in order. */
  function Renderings(xs: seq<int>): (r: seq<string>)
    ensures |r| == |xs|
  {
    seq(|xs|, k requires 0 <= k < |xs| => IntToString(xs[k]))
  }

  /** `xs.joinToString(sep)`. */
  function JoinToString(sep: string, xs: seq<int>): string
  {
    Join(sep, Renderings(xs))
  }

  /** `List.toString()`: the elements separated by ", " inside brackets;
      "[]" for the empty list. */
  function ListToString(xs: seq<int>): string
  {
    "[" + JoinToString(", ", xs) + "]"
  }
}

=== FILE: test_examples.dfy ===
/** Concrete cases asserted by the unit and instrumented tests, proved of
    the model.

    Each lemma takes its literal text (and list) as a parameter pinned by a
    `requires`, or works on a named constant, instead of writing the literal
    into a call: Dafny unfolds recursive functions applied to literals
    eagerly, which makes the proofs far more expensive. */
module TestExamples {
  import opened Wrappers
  import opened KotlinInt
  import opened Decimal
  import opened Render
  import opened DigitRuns
  import opened Extraction
  import opened MainActivity
  import opened TestUtils
  import opened TestFixtures

  /** The listener on "Hello 123 World 456": numbers [123, 456], sum 579. */
  lemma HelloWorldReading(text: string)
    requires text == "Hello 123 World 456"
    ensures OnTextRecognized(text)
            == Success(Reading([123, 456], 579, "Detected: " + "[123, 456]" + "\nSum: " + "579"))
  {
    var nums: seq<Int32> := [123, 456];
    HelloWorldNumbers(text, nums);
    ReadingOf(text, nums);
    HelloWorldLabel(nums);
  }

  lemma HelloWorldNumbers(text: string, nums: seq<Int32>)
    requires text == "Hello 123 World 456" && nums == [123, 456]
    ensures Extract(text) == Success(nums)
  {
    var seps := ["Hello ", " World ", ""];
    var runs := ["123", "456"];
    assert Interleave(seps, runs) == text;
    ThreeDigitValues();
    ValidateInterleaved(seps, runs, nums);
  }

  lemma HelloWorldLabel(nums: seq<Int32>)
    requires nums == [123, 456]
    ensures IntSum(nums) == 579
    ensures DetectedLabel(nums, IntSum(nums)) == "Detected: " + "[123, 456]" + "\nSum: " + "579"
  {
    HelloWorldSum(nums);
    HelloWorldList(nums);
  }

  lemma HelloWorldSum(nums: seq<Int32>)
    requires nums == [123, 456]
    ensures IntSum(nums) == 579 && IntToString(579) == "579"
  {
    assert nums[..1] == [123] && [123][..0] == [];
    assert Sum(nums) == 579;
    NatToStringSnoc(57, "5", '7');
    NatToStringSnoc(579, "57", '9');
  }

  lemma HelloWorldList(nums: seq<Int32>)
    requires nums == [123, 456]
    ensures ListToString(nums) == "[123, 456]"
  {
    ThreeDigitValues();
    var r := Renderings(nums);
    assert r == ["123", "456"];
    assert r[1..] == ["456"];
    assert Join(", ", r) == "123" + ", " + "456";
  }

  /** A minus sign is a separator: "-5 10 -3" gives [5, 10, 3]. */
  lemma SignsDropped(text: string)
    requires text == "-5 10 -3"
    ensures ExtractNumbersFromText(text) == Success([5, 10, 3])
  {
    var seps := ["-", " ", " -", ""];
    var runs := ["5", "10", "3"];
    assert Interleave(seps, runs) == text;
    ValidateInterleaved(seps, runs, [5, 10, 3]);
  }

  /** A decimal point is a separator: "Price: 12.34 and 56.78" gives
      [12, 34, 56, 78]. */
  lemma DecimalsSplit(text: string)
    requires text == "Price: 12.34 and 56.78"
    ensures ExtractNumbersFromText(text) == Success([12, 34, 56, 78])
  {
    var seps := ["Price: ", ".", " and ", ".", ""];
    var runs := ["12", "34", "56", "78"];
    assert Interleave(seps, runs) == text;
    DecimalValues();
    ValidateInterleaved(seps, runs, [12, 34, 56, 78]);
  }

  /** "Price: $99.99, Quantity: 5, Total: 149.50" gives [99, 99, 5, 149, 50]. */
  lemma MixedText(text: string)
    requires text == "Price: $99.99, Quantity: 5, Total: 149.50"
    ensures ExtractNumbersFromText(text) == Success([99, 99, 5, 149, 50])
  {
    var seps := ["Price: $", ".", ", Quantity: ", ", Total: ", ".", ""];
    var runs := ["99", "99", "5", "149", "50"];
    MixedLayout(text);
    MixedValues();
    ValidateInterleaved(seps, runs, [99, 99, 5, 149, 50]);
  }

  lemma MixedLayout(text: string)
    requires text == "Price: $99.99, Quantity: 5, Total: 149.50"
    ensures Interleave(["Price: $", ".", ", Quantity: ", ", Total: ", ".", ""], ["99", "99", "5", "149", "50"]) == text
  {
    MixedChain();
    MixedHalves();
    MixedHead(text);
    MixedTail(text);
    assert text == text[..13] + text[13..];
  }

  lemma MixedHead(text: string)
    requires text == "Price: $99.99, Quantity: 5, Total: 149.50"
    ensures text[..13] == "Price: $99.99"
  {
  }

  lemma MixedTail(text: string)
    requires text == "Price: $99.99, Quantity: 5, Total: 149.50"
    ensures |text| == 41 && text[13..] == ", Quantity: 5, Total: 149.50"
  {
  }

  lemma MixedChain()
    ensures Interleave(["Price: $", ".", ", Quantity: ", ", Total: ", ".", ""], ["99", "99", "5", "149", "50"])
         == ("Price: $" + ("99" + ("." + "99"))) + (", Quantity: " + ("5" + (", Total: " + ("149" + ("." + "50")))))
  {
    InterleaveCons([".", ""], ["50"], "");
    InterleaveCons([", Total: ", ".", ""], ["149", "50"], "." + ("50" + ""));
    InterleaveCons([", Quantity: ", ", Total: ", ".", ""], ["5", "149", "50"], ", Total: " + ("149" + ("." + ("50" + ""))));
    InterleaveCons([".", ", Quantity: ", ", Total: ", ".", ""], ["99", "5", "149", "50"], ", Quantity: " + ("5" + (", Total: " + ("149" + ("." + ("50" + ""))))));
    InterleaveCons(["Price: $", ".", ", Quantity: ", ", Total: ", ".", ""], ["99", "99", "5", "149", "50"], "." + ("99" + (", Quantity: " + ("5" + (", Total: " + ("149" + ("." + ("50" + ""))))))));
  }

  lemma MixedHalves()
    ensures "Price: $" + ("99" + ("." + "99")) == "Price: $99.99"
    ensures ", Quantity: " + ("5" + (", Total: " + ("149" + ("." + "50")))) == ", Quantity: 5, Total: 149.50"
  {
  }

  lemma MixedValues()
    ensures Value("99") == 99 && Value("5") == 5 && Value("149") == 149 && Value("50") == 50
  {
    NatToStringSnoc(99, "9", '9');
    NatToStringSnoc(14, "1", '4');
    NatToStringSnoc(149, "14", '9');
    NatToStringSnoc(50, "5", '0');
  }

  /** Leading zeros do not count: "0" and "000" give [0], "00123" gives
      [123]. */
  lemma LeadingZerosVanish(a: string, b: string, c: string)
    requires a == "0" && b == "000" && c == "00123"
    ensures ExtractNumbersFromText(a) == Success([0])
    ensures ExtractNumbersFromText(b) == Success([0])
    ensures ExtractNumbersFromText(c) == Success([123])
  {
    ZerosValue(b);
    ExtractRun(a);
    ExtractRun(b);
    ZeroPaddedRun(c);
  }

  lemma ZeroPaddedRun(c: string)
    requires c == "00123"
    ensures ExtractNumbersFromText(c) == Success([123])
  {
    ThreeDigitValues();
    LeadingZeros("00", "123");
    assert "00" + "123" == c;
    ExtractRun(c);
  }

  /** Trailing zeros do count: "123000" gives [123000]. */
  lemma TrailingZerosKept(d: string)
    requires d == "123000"
    ensures ExtractNumbersFromText(d) == Success([123000])
  {
    NatToStringSnoc(12, "1", '2');
    NatToStringSnoc(123, "12", '3');
    NatToStringSnoc(1230, "123", '0');
    NatToStringSnoc(12300, "1230", '0');
    NatToStringSnoc(123000, "12300", '0');
    assert NatToString(123000) == "123000";
    ExtractRun(d);
  }

  /** Nine nines is accepted as it is. */
  lemma NineNinesFits(text: string)
    requires text == "999999999"
    ensures ExtractNumbersFromText(text) == Success([999999999])
  {
    NineNines();
    ExtractRun(text);
  }

  /** `containsMatchIn` is true on "123", "abc123def" and "123.456". */
  lemma RegexMatches(a: string, b: string, c: string)
    requires a == "123" && b == "abc123def" && c == "123.456"
    ensures TestRegexPattern(a) && TestRegexPattern(b) && TestRegexPattern(c)
  {
    assert IsDigit(a[0]) && IsDigit(b[3]) && IsDigit(c[0]);
  }

  /** `containsMatchIn` is false on "abc", "" and " ". */
  lemma RegexMisses(a: string, b: string, c: string)
    requires a == "abc" && b == "" && c == " "
    ensures !TestRegexPattern(a) && !TestRegexPattern(b) && !TestRegexPattern(c)
  {
    assert DigitFree(a) && DigitFree(c);
  }

  /** The helper `testRegexPattern` is true on "Hello 123 World" and false
      on "Hello World". */
  lemma HelperRegexExamples(yes: string, no: string)
    requires yes == "Hello 123 World" && no == "Hello World"
    ensures TestRegexPattern(yes) && !TestRegexPattern(no)
  {
    assert IsDigit(yes[6]) && DigitFree(no);
  }

  /** "123 456" validates against [123, 456] but not [123, 789]. */
  lemma ValidationExamples(text: string)
    requires text == "123 456"
    ensures ValidateNumberExtraction(text, [123, 456]) == Success(true)
    ensures ValidateNumberExtraction(text, [123, 789]) == Success(false)
  {
    var seps := ["", " ", ""];
    var runs := ["123", "456"];
    assert Interleave(seps, runs) == text;
    ThreeDigitValues();
    ValidateInterleaved(seps, runs, [123, 456]);
    var good: seq<Int32> := [123, 456];
    var bad: seq<Int32> := [123, 789];
    assert good[1] != bad[1];
  }

  /** The sum of "1 2 3 4 5" validates as 15 but not as 20. */
  lemma SumValidationExamples(numbers: string)
    requires numbers == MultipleNumbersText
    ensures ValidateSumCalculation(numbers, 15) == Success(true)
    ensures ValidateSumCalculation(numbers, 20) == Success(false)
  {
    MultipleNumbersFixture(numbers, MultipleNumbersResult);
    SumOfFive(MultipleNumbersResult);
  }

  /** The generator with the default prefix. */
  lemma GenerateDefaultExample(five: seq<Int32>)
    requires five == [1, 2, 3, 4, 5]
    ensures GenerateTestText(five, DefaultPrefix) == "Test numbers: " + "1 2 3 4 5"
  {
    var r5 := Renderings(five);
    assert r5 == ["1", "2", "3", "4", "5"];
    assert Join(" ", r5[3..]) == "4" + " " + "5";
    assert Join(" ", r5[2..]) == "3" + " " + "4 5";
    assert Join(" ", r5[1..]) == "2" + " " + "3 4 5";
    assert Join(" ", r5) == "1" + " " + "2 3 4 5";
  }

  /** The generator with a custom prefix. */
  lemma GenerateCustomExample(three: seq<Int32>)
    requires three == [10, 20, 30]
    ensures GenerateTestText(three, "Custom: ") == "Custom: " + "10 20 30"
  {
    NatToStringSnoc(10, "1", '0');
    NatToStringSnoc(20, "2", '0');
    NatToStringSnoc(30, "3", '0');
    assert NatToString(10) == "10" && NatToString(20) == "20" && NatToString(30) == "30";
    var r3 := Renderings(three);
    assert r3[0] == "10" && r3[1] == "20" && r3[2] == "30";
    assert r3 == ["10", "20", "30"];
    assert Join(" ", r3[1..]) == "20" + " " + "30";
    assert Join(" ", r3) == "10" + " " + "20 30";
  }
}

=== FILE: test_fixtures.dfy ===
/** The fixture table of the test utility object: each `TestData` text
    with its `ExpectedResults` list, and the sums the test suite checks.

    Each lemma takes its literal text (and list) as a parameter pinned by a
    `requires`, or works on a named constant, instead of writing the literal
    into a call: Dafny unfolds recursive functions applied to literals
    eagerly, which makes the proofs far more expensive. */
module TestFixtures {
  import opened Wrappers
  import opened KotlinInt
  import opened Decimal
  import opened DigitRuns
  import opened Extraction
  import opened TestUtils

  const EmptyText: string := ""
  const NoNumbersText: string := "Hello World"
  const SingleNumberText: string := "123"
  const MultipleNumbersText: string := "1 2 3 4 5"
  const LargeNumbersText: string := "999999999 1000000000"
  const DecimalNumbersText: string := "12.34 56.78"
  const SpecialCharactersText: string := "Test@#$%^&*()123!@#$%^&*()456"
  const WhitespaceText: string := "  123   456   789  "
  const NewlineText: string := "Line 1: 123\nLine 2: 456\nLine 3: 789"
  const ZeroNumbersText: string := "0 000 00123"

  const EmptyTextNumbers: seq<Int32> := []
  const NoNumbersResult: seq<Int32> := []
  const SingleNumberResult: seq<Int32> := [123]
  const MultipleNumbersResult: seq<Int32> := [1, 2, 3, 4, 5]
  const LargeNumbersResult: seq<Int32> := [999999999, 1000000000]
  const DecimalNumbersResult: seq<Int32> := [12, 34, 56, 78]
  const SpecialCharactersResult: seq<Int32> := [123, 456]
  const WhitespaceResult: seq<Int32> := [123, 456, 789]
  const NewlineResult: seq<Int32> := [1, 123, 2, 456, 3, 789]
  const ZeroNumbersResult: seq<Int32> := [0, 0, 123]

  /** A text laid out as separators and runs validates against the runs'
      values. */
  lemma ValidateInterleaved(seps: seq<string>, runs: seq<string>, expected: seq<Int32>)
    requires |seps| == |runs| + 1
    requires forall k :: 0 <= k < |seps| ==> DigitFree(seps[k])
    requires forall k :: 0 < k < |runs| ==> |seps[k]| > 0
    requires forall k :: 0 <= k < |runs| ==> |runs[k]| >= 1 && AllDigits(runs[k])
    requires |expected| == |runs|
    requires forall k :: 0 <= k < |runs| ==> Value(runs[k]) == expected[k]
    ensures ValidateNumberExtraction(Interleave(seps, runs), expected) == Success(true)
  {
    TokensInterleaved(seps, runs);
    var r := RunsToInts(runs);
    assert r.Success?;
    assert r.value == expected;
  }

  lemma DecimalNumbersFixture(text: string, expected: seq<Int32>)
    requires text == DecimalNumbersText && expected == DecimalNumbersResult
    ensures ValidateNumberExtraction(text, expected) == Success(true)
  {
    var seps := ["", ".", " ", ".", ""];
    var runs := ["12", "34", "56", "78"];
    assert Interleave(seps, runs) == text;
    DecimalValues();
    ValidateInterleaved(seps, runs, expected);
  }
  lemma EmptyTextFixture(text: string, expected: seq<Int32>)
    requires text == EmptyText && expected == EmptyTextNumbers
    ensures ValidateNumberExtraction(text, expected) == Success(true)
  {
    ValidateInterleaved([text], [], expected);
  }

  lemma NoNumbersFixture(text: string, expected: seq<Int32>)
    requires text == NoNumbersText && expected == NoNumbersResult
    ensures ValidateNumberExtraction(text, expected) == Success(true)
  {
    ValidateInterleaved([text], [], expected);
  }

  lemma SingleNumberFixture(text: string, expected: seq<Int32>)
    requires text == SingleNumberText && expected == SingleNumberResult
    ensures ValidateNumberExtraction(text, expected) == Success(true)
  {
    var seps := ["", ""];
    var runs := ["123"];
    assert Interleave(seps, runs) == text;
    ThreeDigitValues();
    ValidateInterleaved(seps, runs, expected);
  }

  lemma MultipleNumbersFixture(text: string, expected: seq<Int32>)
    requires text == MultipleNumbersText && expected == MultipleNumbersResult
    ensures ValidateNumberExtraction(text, expected) == Success(true)
  {
    var seps := ["", " ", " ", " ", " ", ""];
    var runs := ["1", "2", "3", "4", "5"];
    assert Interleave(seps, runs) == text;
    ValidateInterleaved(seps, runs, expected);
  }

  lemma LargeNumbersFixture(text: string, expected: seq<Int32>)
    requires text == LargeNumbersText && expected == LargeNumbersResult
    ensures ValidateNumberExtraction(text, expected) == Success(true)
  {
    var seps := ["", " ", ""];
    var runs := ["999999999", "1000000000"];
    assert Interleave(seps, runs) == text;
    LargeValues();
    ValidateInterleaved(seps, runs, expected);
  }

  lemma SpecialCharactersFixture(text: string, expected: seq<Int32>)
    requires text == SpecialCharactersText && expected == SpecialCharactersResult
    ensures ValidateNumberExtraction(text, expected) == Success(true)
  {
    var seps := ["Test@#$%^&*()", "!@#$%^&*()", ""];
    var runs := ["123", "456"];
    assert Interleave(seps, runs) == text;
    ThreeDigitValues();
    ValidateInterleaved(seps, runs, expected);
  }

  lemma WhitespaceFixture(text: string, expected: seq<Int32>)
    requires text == WhitespaceText && expected == WhitespaceResult
    ensures ValidateNumberExtraction(text, expected) == Success(true)
  {
    var seps := ["  ", "   ", "   ", "  "];
    var runs := ["123", "456", "789"];
    assert Interleave(seps, runs) == text;
    ThreeDigitValues();
    ValidateInterleaved(seps, runs, expected);
  }

  lemma NewlineFixture(text: string, expected: seq<Int32>)
    requires text == NewlineText && expected == NewlineResult
    ensures ValidateNumberExtraction(text, expected) == Success(true)
  {
    var seps := ["Line ", ": ", "\nLine ", ": ", "\nLine ", ": ", ""];
    var runs := ["1", "123", "2", "456", "3", "789"];
    NewlineLayout(text);
    ThreeDigitValues();
    ValidateInterleaved(seps, runs, expected);
  }

  lemma NewlineLayout(text: string)
    requires text == NewlineText
    ensures Interleave(["Line ", ": ", "\nLine ", ": ", "\nLine ", ": ", ""], ["1", "123", "2", "456", "3", "789"]) == text
  {
    NewlineChain();
  }

  lemma NewlineChain()
    ensures Interleave(["Line ", ": ", "\nLine ", ": ", "\nLine ", ": ", ""], ["1", "123", "2", "456", "3", "789"])
         == "Line " + ("1" + (": " + ("123" + ("\nLine " + ("2" + (": " + ("456" + ("\nLine " + ("3" + (": " + ("789" + "")))))))))))
  {
    InterleaveCons([": ", ""], ["789"], "");
    InterleaveCons(["\nLine ", ": ", ""], ["3", "789"], ": " + ("789" + ""));
    InterleaveCons([": ", "\nLine ", ": ", ""], ["456", "3", "789"], "\nLine " + ("3" + (": " + ("789" + ""))));
    InterleaveCons(["\nLine ", ": ", "\nLine ", ": ", ""], ["2", "456", "3", "789"], ": " + ("456" + ("\nLine " + ("3" + (": " + ("789" + ""))))));
    InterleaveCons([": ", "\nLine ", ": ", "\nLine ", ": ", ""], ["123", "2", "456", "3", "789"], "\nLine " + ("2" + (": " + ("456" + ("\nLine " + ("3" + (": " + ("789" + ""))))))));
    InterleaveCons(["Line ", ": ", "\nLine ", ": ", "\nLine ", ": ", ""], ["1", "123", "2", "456", "3", "789"], ": " + ("123" + ("\nLine " + ("2" + (": " + ("456" + ("\nLine " + ("3" + (": " + ("789" + ""))))))))));
  }

  lemma ZeroNumbersFixture(text: string, expected: seq<Int32>)
    requires text == ZeroNumbersText && expected == ZeroNumbersResult
    ensures ValidateNumberExtraction(text, expected) == Success(true)
  {
    var seps := ["", " ", " ", ""];
    var runs := ["0", "000", "00123"];
    assert Interleave(seps, runs) == text;
    ThreeDigitValues();
    ZerosValue("000");
    LeadingZeros("00", "123");
    assert "00" + "123" == "00123";
    ValidateInterleaved(seps, runs, expected);
  }

  lemma ThreeDigitValues()
    ensures NatToString(123) == "123" && NatToString(456) == "456" && NatToString(789) == "789"
    ensures Value("123") == 123 && Value("456") == 456 && Value("789") == 789
  {
    NatToStringSnoc(12, "1", '2');
    NatToStringSnoc(123, "12", '3');
    NatToStringSnoc(45, "4", '5');
    NatToStringSnoc(456, "45", '6');
    NatToStringSnoc(78, "7", '8');
    NatToStringSnoc(789, "78", '9');
  }

  lemma DecimalValues()
    ensures Value("12") == 12 && Value("34") == 34 && Value("56") == 56 && Value("78") == 78
  {
    NatToStringSnoc(12, "1", '2');
    NatToStringSnoc(34, "3", '4');
    NatToStringSnoc(56, "5", '6');
    NatToStringSnoc(78, "7", '8');
    assert NatToString(12) == "12" && NatToString(34) == "34";
    assert NatToString(56) == "56" && NatToString(78) == "78";
  }

  lemma LargeValues()
    ensures Value("999999999") == 999999999 && Value("1000000000") == 1000000000
  {
    NineNines();
    OneBillion();
  }

  lemma NineNines()
    ensures NatToString(999999999) == "999999999"
  {
    NatToStringSnoc(99, "9", '9');
    NatToStringSnoc(999, "99", '9');
    NatToStringSnoc(9999, "999", '9');
    NatToStringSnoc(99999, "9999", '9');
    NatToStringSnoc(999999, "99999", '9');
    NatToStringSnoc(9999999, "999999", '9');
    NatToStringSnoc(99999999, "9999999", '9');
  }

  lemma OneBillion()
    ensures NatToString(1000000000) == "1000000000"
  {
    NatToStringSnoc(10, "1", '0');
    NatToStringSnoc(100, "10", '0');
    NatToStringSnoc(1000, "100", '0');
    NatToStringSnoc(10000, "1000", '0');
    NatToStringSnoc(100000, "10000", '0');
    NatToStringSnoc(1000000, "100000", '0');
    NatToStringSnoc(10000000, "1000000", '0');
  }

  /** Each `TestData` text with the `ExpectedResults` list it is validated
      against. */
  const Fixtures: seq<(string, seq<Int32>)> := [
    (EmptyText, EmptyTextNumbers),
    (NoNumbersText, NoNumbersResult),
    (SingleNumberText, SingleNumberResult),
    (MultipleNumbersText, MultipleNumbersResult),
    (LargeNumbersText, LargeNumbersResult),
    (DecimalNumbersText, DecimalNumbersResult),
    (SpecialCharactersText, SpecialCharactersResult),
    (WhitespaceText, WhitespaceResult),
    (NewlineText, NewlineResult),
    (ZeroNumbersText, ZeroNumbersResult)
  ]

  /** Every fixture validates: its text extracts to exactly its list. */
  lemma FixtureTable(fixtures: seq<(string, seq<Int32>)>)
    requires fixtures == Fixtures
    ensures forall k :: 0 <= k < |fixtures| ==>
              ValidateNumberExtraction(fixtures[k].0, fixtures[k].1) == Success(true)
  {
    forall k | 0 <= k < |fixtures|
      ensures ValidateNumberExtraction(fixtures[k].0, fixtures[k].1) == Success(true)
    {
      var (text, expected) := fixtures[k];
      if k == 0 {
        EmptyTextFixture(text, expected);
      } else if k == 1 {
        NoNumbersFixture(text, expected);
      } else if k == 2 {
        SingleNumberFixture(text, expected);
      } else if k == 3 {
        MultipleNumbersFixture(text, expected);
      } else if k == 4 {
        LargeNumbersFixture(text, expected);
      } else if k == 5 {
        DecimalNumbersFixture(text, expected);
      } else if k == 6 {
        SpecialCharactersFixture(text, expected);
      } else if k == 7 {
        WhitespaceFixture(text, expected);
      } else if k == 8 {
        NewlineFixture(text, expected);
      } else {
        ZeroNumbersFixture(text, expected);
      }
    }
  }

  /** The sums the suite checks: 0 for the empty and digit-free texts, 123
      and 15 for the single and multiple number texts. */
  lemma SumFixtures()
    ensures ValidateSumCalculation(EmptyText, 0) == Success(true)
    ensures ValidateSumCalculation(NoNumbersText, 0) == Success(true)
    ensures ValidateSumCalculation(SingleNumberText, 123) == Success(true)
    ensures ValidateSumCalculation(MultipleNumbersText, 15) == Success(true)
  {
    EmptyTextFixture(EmptyText, EmptyTextNumbers);
    NoNumbersFixture(NoNumbersText, NoNumbersResult);
    SingleNumberFixture(SingleNumberText, SingleNumberResult);
    MultipleNumbersFixture(MultipleNumbersText, MultipleNumbersResult);
    SumOfFive(MultipleNumbersResult);
    assert Sum(SingleNumberResult) == 123;
  }

  lemma SumOfFive(xs: seq<Int32>)
    requires xs == [1, 2, 3, 4, 5]
    ensures IntSum(xs) == 15
  {
    assert xs[..4] == [1, 2, 3, 4] && xs[..4][..3] == [1, 2, 3];
    assert xs[..4][..3][..2] == [1, 2] && xs[..4][..3][..2][..1] == [1];
    assert [1][..0] == [];
    assert Sum([1]) == 1;
    assert Sum([1, 2]) == 3;
    assert Sum([1, 2, 3]) == 6;
    assert Sum([1, 2, 3, 4]) == 10;
    assert Sum(xs) == 15;
  }
}

=== FILE: test_utils.dfy ===
/** The pure helpers of the test utility object: the same extraction as
    the app, the sum of a text, the two validators, the test-text
    generator, the "contains a number" predicate and the size half of the
    stress test. */
module TestUtils {
  import opened Wrappers
  import opened KotlinInt
  import opened Decimal
  import opened Render
  import opened DigitRuns
  import opened Extraction
  import opened MainActivity

  /** `extractNumbersFromText`: the app's own extraction, run on its own. */
  function ExtractNumbersFromText(text: string): (r: Result<seq<Int32>, NumberFormatError>)
    ensures r.Success? <==> OnTextRecognized(text).Success?
    ensures r.Success? ==> r.value == OnTextRecognized(text).value.nums
    ensures r.Failure? ==> r.error == OnTextRecognized(text).error
  {
    Extract(text)
  }

  /** `calculateSumFromText`: `List<Int>.sum()` of the extracted numbers,
      the same total the app shows. */
  function CalculateSumFromText(text: string): (r: Result<Int32, NumberFormatError>)
    ensures r.Success? <==> ExtractNumbersFromText(text).Success?
    ensures r.Success? ==> r.value == Wrap(Sum(ExtractNumbersFromText(text).value))
    ensures r.Success? ==> r.value == OnTextRecognized(text).value.sum
    ensures r.Failure? ==> r.error == ExtractNumbersFromText(text).error
  {
    match ExtractNumbersFromText(text)
    case Failure(e) => Failure(e)
    case Success(nums) => Success(IntSum(nums))
  }

  /** `validateNumberExtraction`: list equality, so order and repetitions
      count. It throws whenever the extraction throws. */
  function ValidateNumberExtraction(text: string, expected: seq<Int32>): (r: Result<bool, NumberFormatError>)
    ensures r.Success? <==> AllFit(Tokens(text))
    ensures r == Success(true) <==> ExtractNumbersFromText(text) == Success(expected)
  {
    match ExtractNumbersFromText(text)
    case Failure(e) => Failure(e)
    case Success(nums) => Success(nums == expected)
  }

  /** `validateSumCalculation`: equality with the wrapped total. It throws
      whenever the extraction throws. */
  function ValidateSumCalculation(text: string, expectedSum: Int32): (r: Result<bool, NumberFormatError>)
    ensures r.Success? <==> AllFit(Tokens(text))
    ensures r == Success(true) <==> CalculateSumFromText(text) == Success(expectedSum)
  {
    match CalculateSumFromText(text)
    case Failure(e) => Failure(e)
    case Success(sum) => Success(sum == expectedSum)
  }

  /** The default prefix of `generateTestText`. */
  const DefaultPrefix: string := "Test numbers: "

  /** `generateTestText`: the prefix, then the numbers separated by single
      spaces. */
  function GenerateTestText(numbers: seq<Int32>, prefix: string): (r: string)
    ensures |r| >= |prefix| && r[..|prefix|] == prefix
    ensures |numbers| == 0 ==> r == prefix
  {
    prefix + JoinToString(" ", numbers)
  }

  /** `testRegexPattern`: whether `\d+` matches somewhere in the text. */
  function TestRegexPattern(text: string): (r: bool)
    ensures r <==> exists i :: 0 <= i < |text| && IsDigit(text[i])
  {
    if |text| == 0 then false
    else if IsDigit(text[0]) then true
    else
      var rest := TestRegexPattern(text[1..]);
      assert forall i :: 1 <= i < |text| ==> text[i] == text[1..][i - 1];
      rest
  }

  /** The numbers 1, 2, ..., n of `(1..numberCount)`: none when n < 1. */
  function UpTo(n: Int32): (r: seq<Int32>)
    ensures |r| == if n < 0 then 0 else n
    ensures forall x: int :: x in r <==> 1 <= x <= n
    ensures forall i, j :: 0 <= i < j < |r| ==> r[i] < r[j]
    decreases if n < 0 then 0 else n
  {
    if n <= 0 then []
    else
      var r := UpTo(n - 1);
      assert forall k :: 0 <= k < |r| ==> r[k] in r;
      r + [n]
  }

  /** The text `stressTest` extracts from. */
  function StressText(numberCount: Int32): string
  {
    "This is a stress test with many numbers: " + JoinToString(" ", UpTo(numberCount))
  }

  /** The size half of `stressTest`: whether one number is extracted for
      each of 1..numberCount. */
  function StressTestSize(numberCount: Int32): Result<bool, NumberFormatError>
  {
    match ExtractNumbersFromText(StressText(numberCount))
    case Failure(e) => Failure(e)
    case Success(nums) => Success(|nums| == numberCount)
  }
  /** When the exact total fits in an `Int`, the text's sum is that total. */
  lemma CalculateSumExact(text: string)
    requires ExtractNumbersFromText(text).Success?
    requires Sum(ExtractNumbersFromText(text).value) <= MaxInt
    ensures CalculateSumFromText(text) == Success(Sum(ExtractNumbersFromText(text).value))
  {
    SumOfNonNegative(ExtractNumbersFromText(text).value);
  }

  /** A validation that does not throw holds exactly when the expected list
      has one element per run of digits, each the value of its run. */
  lemma ValidateNumberExtractionMeaning(text: string, expected: seq<Int32>)
    requires ValidateNumberExtraction(text, expected).Success?
    ensures ValidateNumberExtraction(text, expected).value
            <==> |expected| == |Tokens(text)|
                 && forall k :: 0 <= k < |expected| ==> expected[k] == Value(Tokens(text)[k])
  {
    var nums := Extract(text).value;
    if |expected| == |Tokens(text)| && forall k :: 0 <= k < |expected| ==> expected[k] == Value(Tokens(text)[k]) {
      assert forall k :: 0 <= k < |expected| ==> expected[k] == nums[k];
      assert nums == expected;
    }
  }

  /** With an exact total that fits, the sum validation holds exactly for
      that total. */
  lemma ValidateSumExact(text: string, expectedSum: Int32)
    requires ExtractNumbersFromText(text).Success?
    requires Sum(ExtractNumbersFromText(text).value) <= MaxInt
    ensures ValidateSumCalculation(text, expectedSum)
            == Success(expectedSum == Sum(ExtractNumbersFromText(text).value))
  {
    CalculateSumExact(text);
  }

  lemma DefaultPrefixDigitFree()
    ensures DigitFree(DefaultPrefix)
  {
  }

  /** Round trip of the generator with any digit-free prefix: the numbers
      come back as their magnitudes, and only `Int.MIN_VALUE`, whose
      magnitude does not fit, makes the extraction throw. */
  lemma GeneratedTextExtraction(numbers: seq<Int32>, prefix: string)
    requires DigitFree(prefix)
    ensures var r := ExtractNumbersFromText(GenerateTestText(numbers, prefix));
      && (r.Success? <==> MinInt !in numbers)
      && (r.Success? ==> |r.value| == |numbers| && forall k :: 0 <= k < |numbers| ==> r.value[k] == Abs(numbers[k]))
      && (r.Failure? ==> r.error == NumberFormat("2147483648"))
  {
    ExtractAfterSeparators(prefix, JoinToString(" ", numbers));
    ExtractRendered(" ", numbers);
  }

  /** Round trip for non-negative numbers: they come back unchanged. */
  lemma GeneratedTextRoundTrip(numbers: seq<Int32>, prefix: string)
    requires DigitFree(prefix)
    requires forall k :: 0 <= k < |numbers| ==> 0 <= numbers[k]
    ensures ExtractNumbersFromText(GenerateTestText(numbers, prefix)) == Success(numbers)
  {
    ExtractAfterSeparators(prefix, JoinToString(" ", numbers));
    ExtractRenderedNonNegative(" ", numbers);
  }

  /** `\d+` matches somewhere exactly when the extraction finds a run, that
      is, when it does not return the empty list. */
  lemma RegexPatternMeansTokens(text: string)
    ensures TestRegexPattern(text) <==> |Tokens(text)| > 0
    ensures TestRegexPattern(text) <==> ExtractNumbersFromText(text) != Success([])
  {
    TokensEmpty(text);
    ExtractEmpty(text);
  }

  /** The size half of `stressTest` holds for every non-negative count, and
      the numbers extracted are 1..numberCount in order. */
  lemma StressTestHolds(numberCount: Int32)
    ensures ExtractNumbersFromText(StressText(numberCount)) == Success(UpTo(numberCount))
    ensures StressTestSize(numberCount) == Success(numberCount >= 0)
  {
    var prefix := "This is a stress test with many numbers: ";
    assert DigitFree(prefix);
    var numbers := UpTo(numberCount);
    forall k | 0 <= k < |numbers|
      ensures 0 <= numbers[k]
    {
      assert numbers[k] in numbers;
    }
    GeneratedTextRoundTrip(numbers, prefix);
    assert StressText(numberCount) == GenerateTestText(numbers, prefix);
    assert (|numbers| == numberCount) == (numberCount >= 0);
  }
}

=== FILE: wrappers.dfy ===
/** The success-or-exception outcome of a Kotlin call, as a value. */
module Wrappers {

  /** Either the value a call returns or the exception it throws. */
  datatype Result<+T, +E> = Success(value: T) | Failure(error: E)
}
